=== FILE: README.md ===
# Complex-Function array engine in Dafny

A model of the array engine `stuff.logic.Array` and of the two operation
catalogues `stuff.logic.AFunc` and `stuff.logic.VFunc`, with proofs about
them.

An `Array` has three fields. `l` is a dims list whose entries 0..2 are
clamped into [1, 16]. `s` is a flat storage of doubles, addressed row-major
with the last axis fastest. `All` is a cached cell count. The model keeps
these as an immutable record, `ArrayEngine.Arr(l, s, All)`. Every mutating
Java method becomes a pure function that returns the new record. Wherever
Java would throw, the model returns `Err(fault)`.

Module layout:

- `Outcomes` (`outcomes.dfy`): `Result` and `Option`, and the faults Java
  raises.
- `JavaInt` (`java_int.dfy`): Java's 32-bit `int`. It covers wrap-around of
  `*` and `+`, the truncating `/` and `%`, and `Mathf.clamp`.
- `JavaText` (`java_text.dfy`): `indexOf`, `substring` between two
  characters, and `split(" ", 0)`.
- `Radix` (`radix.dfy`): a reference row-major addressing over unbounded
  integers. `Flat` encodes a position and `Coords` decodes an index; the
  file proves that the two are inverse bijections.
- `VectorAlgebra` (`vector_algebra.dfy`): dot-product prefixes and the 3-D
  cross product.
- `ArrayEngine` (`array_engine.dfy`): every core method of `Array.java`, as
  the code behaves.
- `ArrayAddressing` (`array_addressing.dfy`): `NumToPos` and the index walk
  of `getNum` agree with `Radix` when no 32-bit arithmetic wraps.
- `ArrayProperties` (`array_properties.dfy`): what the operations do on
  three-axis arrays. A shaped array has three positive extents whose
  product fits in an `int` and a storage of exactly that many cells; its
  count `All` may be stale. A well-formed array is shaped, has its extents
  in [1, 16] and `All ==` the product. The facts are stated against an
  independent zero-fill reading, `Read`: an in-range position reads its
  cell, and any other position reads 0.
- `DescriptorProperties` (`descriptor_properties.dfy`): what
  `Array(String)` makes of a descriptor `"[d0 d1 d2] {v0 v1 ...}"`, and when
  it falls back.
- `ArrayFixes` (`array_fixes.dfy`): five defects of the code. Each has the
  behaviour as written, an input that shows it, and a corrected definition
  with the intended property proved.
- `AFuncCatalog` (`afunc.dfy`) and `VFuncCatalog` (`vfunc.dfy`): the two
  enums.

## Model

| member | source | states |
|---|---|---|
| JavaInt.Wrap | src/stuff/logic/Array.java:85 | the stored `int` is congruent to the exact result modulo 2^32, and equals it when it fits |
| JavaInt.JDiv | src/stuff/logic/Array.java:70 | Java `/` on `int`; for a non-negative dividend and positive divisor it is the mathematical quotient |
| JavaInt.JRem | src/stuff/logic/Array.java:70 | Java `%` on `int`: the remainder is smaller in magnitude than the divisor, and it is the mathematical remainder for non-negative operands |
| JavaInt.Clamp | src/stuff/logic/Array.java:78 | `Mathf.clamp` lands in `[lo, hi]` and leaves a value already inside unchanged |
| JavaText.IndexOf | src/stuff/logic/Array.java:18 | `indexOf` is -1 exactly when the character is absent; otherwise it is a position holding it, with none before it |
| JavaText.Between | src/stuff/logic/Array.java:18 | the `substring(indexOf(open)+1, indexOf(close))` call throws exactly when `close` is absent or comes before the start; a missing `open` starts the slice at 0 |
| JavaText.BetweenSection | src/stuff/logic/Array.java:21 | in a text laid out `pre open mid close post`, with neither bracket in `pre` and no `close` in `mid`, the slice is exactly `mid` |
| JavaText.Split | src/stuff/logic/Array.java:47 | `split(" ", 0)` gives space-free tokens; a string without a space is its own single token |
| JavaText.JoinPieces | src/stuff/logic/Array.java:47 | joining the pieces between spaces with single spaces rebuilds any string |
| JavaText.PiecesJoin | src/stuff/logic/Array.java:57 | cutting a space-joined list of space-free tokens at its spaces gives the tokens back |
| JavaText.SplitJoin | src/stuff/logic/Array.java:47 | `split(" ", 0)` inverts joining non-empty, space-free tokens |
| ArrayEngine.Limit | src/stuff/logic/Array.java:76-80 | throws exactly on a list shorter than three; otherwise entries 0..2 are clamped into [1, 16] (kept when inside, raised to 1, lowered to 16) and the rest are unchanged |
| ArrayEngine.ProductAll | src/stuff/logic/Array.java:82-87 | for any entries, zero and negative trailing dims included, the result is the true product of all entries wrapped to 32 bits, which is the true product itself when the entries are positive and the product fits in an `int` |
| ArrayEngine.NumToPosFrom | src/stuff/logic/Array.java:66-74 | the decoding loop yields one coordinate per axis walked, and fails only by an arithmetic (division-by-zero) fault |
| ArrayEngine.AddressFrom | src/stuff/logic/Array.java:96-103 | the index walk of `getNum` throws exactly when the position is longer than the dims list, and stops out of range exactly when some coordinate is not below its extent |
| ArrayEngine.NumToPos | src/stuff/logic/Array.java:66-74 | `NumToPos` gives one coordinate per extent and fails only by a division by zero; that it is the row-major decoding is `ArrayAddressing.NumToPosDecodes` |
| ArrayEngine.GetNum | src/stuff/logic/Array.java:96-103 | `getNum(int[])` throws on a position longer than the dims list, reads 0 once a coordinate reaches its extent, and only ever throws index faults |
| ArrayEngine.GetNumAt | src/stuff/logic/Array.java:105-108 | `getNum(int)` as written: 0 outside `[0, All)`; inside, it throws past the dims list and otherwise returns the extent `l[pos]` |
| ArrayEngine.Prod | src/stuff/logic/Array.java:119-123 | `prod(b)` scales every cell by `b`, with dims and count untouched |
| ArrayEngine.Div | src/stuff/logic/Array.java:125-129 | `div(b)` fails exactly for a zero divisor on a non-empty storage; otherwise each new cell times `b` is the old cell |
| ArrayEngine.Collect | src/stuff/logic/Array.java:132-134 | the loop over `i < All` succeeds exactly when every step does, and then yields every step's value in order; a failure is some step's fault |
| ArrayEngine.SumAll | src/stuff/logic/Array.java:110-116 | `sumAll` is the total of the storage: it scales with `prod`, adds over `add` and changes by the difference on a write (`ArrayProperties.SumAllProd`, `SumAllAdd`, `SumUpdate`) |
| ArrayEngine.Add | src/stuff/logic/Array.java:131-135 | `add` fails exactly when an operand lookup throws; otherwise dims and count are kept and each cell below the count gains its operand while the rest are untouched; `minus` undoes it (`ArrayProperties.AddSubInverse`) |
| ArrayEngine.Sub | src/stuff/logic/Array.java:137-141 | `minus` fails exactly when an operand lookup throws; otherwise each cell below the count loses its operand and the rest are untouched |
| ArrayEngine.ProdEach | src/stuff/logic/Array.java:143-147 | `prodEach` fails exactly when an operand lookup throws; otherwise each cell below the count is multiplied by its operand and the rest are untouched |
| ArrayEngine.DivEach | src/stuff/logic/Array.java:149-153 | `divEach` fails exactly when an operand lookup throws or some operand is zero (the non-finite case); otherwise each cell below the count is divided by its operand and the rest are untouched |
| ArrayEngine.Elementwise | src/stuff/logic/Array.java:131-153 | `add`/`minus`/`prodEach`/`divEach` keep dims, count and storage length, and leave cells from `All` on unchanged |
| ArrayEngine.ParseDescriptor | src/stuff/logic/Array.java:17-22 | the `try` block fails on any text without `]` or without `}`; on success the dims are clamped and `All == productAll(l) ==` the storage length |
| ArrayEngine.StringToIntArray | src/stuff/logic/Array.java:46-54 | one entry per token of `split(" ", 0)`; on joined tokens each entry is the parse of its token, or 1 (`DescriptorProperties.DescriptorTokens`) |
| ArrayEngine.StringToDoubleArray | src/stuff/logic/Array.java:56-64 | one entry per token of `split(" ", 0)`; on joined tokens each entry is the parse of its token, or 0 (`DescriptorProperties.DescriptorTokens`) |
| ArrayEngine.FromText | src/stuff/logic/Array.java:16-29 | `Array(String)` is the fallback array or a clamped array whose count is its product and its storage length |
| ArrayEngine.FromDims | src/stuff/logic/Array.java:31-37 | `Array(int...)` throws exactly on fewer than three dims or a negative product; otherwise clamped dims, trailing dims kept, and an all-zero storage of the product's length |
| ArrayEngine.FromValues | src/stuff/logic/Array.java:39-44 | `Array(double...)` has shape `(1, 1, n)`, holds the values verbatim and counts `n` cells |
| ArrayEngine.DotProd | src/stuff/logic/Array.java:155-160 | `dotProd` as written succeeds exactly when both dims lists have a fourth entry and `min(l[3], b.l[3])` fits both storages; a non-positive bound gives 0, and a positive bound `m` gives the dot-product sum of the first `m` cells |
| ArrayEngine.CrossGuard | src/stuff/logic/Array.java:180 | the early-return test holds exactly when both dims lists have more than one entry and both first extents are below 3 |
| ArrayEngine.CrossLoop | src/stuff/logic/Array.java:181-183 | writing three components into a storage shorter than three throws |
| ArrayEngine.CrossSeedFallsBack | src/stuff/logic/Array.java:179 | the descriptor `"[3] {0 0 0}"` gives the fallback array whatever the number parsers do |
| ArrayEngine.CrossProd | src/stuff/logic/Array.java:178-184 | `crossProd` as written succeeds exactly when the early-return guard holds, and then returns the one-cell fallback array the seed text always parses to; otherwise it throws, in the guard or in the loop |
| ArrayEngine.Swap | src/stuff/logic/Array.java:190-192 | the swap exchanges cells `i` and `j` and leaves every other cell alone |
| ArrayEngine.SwapMultiset | src/stuff/logic/Array.java:190-192 | one swap permutes the storage |
| ArrayEngine.SwapStepsMultiset | src/stuff/logic/Array.java:188-193 | every prefix of the shuffle loop permutes the storage |
| ArrayEngine.Shuffle | src/stuff/logic/Array.java:186-194 | `shuffle`, for any drawn swap indices in range, permutes the storage (same multiset) and leaves dims and count unchanged |
| ArrayEngine.ChangeAt | src/stuff/logic/Array.java:196-205 | `Change(int[])` is a no-op on a short position or dims list, or when a coordinate reaches its extent; otherwise at most one cell changes, to the new value |
| ArrayEngine.ChangeIndex | src/stuff/logic/Array.java:207-209 | `Change(int)` writes cell `pos` when it indexes the storage, changes nothing else, and is a no-op otherwise |
| ArrayEngine.Resize | src/stuff/logic/Array.java:211-223 | `Resize` throws on fewer than three target dims and never changes `All`. A lossless resize fails only on fewer than three target dims; it relabels the dims when the products agree and otherwise changes nothing. A lossy one that succeeds installs the clamped dims with a storage of their product's length; it throws on a negative product, gives an empty storage for a zero product, and throws whenever the target has more dims than the array and a positive product, because `getNum` then reads past the dims list |
| ArrayEngine.Length | src/stuff/logic/Array.java:225-230 | `Length()` throws exactly on a dims list shorter than three; otherwise it is the `(1, 1, 3)` vector of the first three extents |
| ArrayAddressing.NumToPosFromDecodes | src/stuff/logic/Array.java:69-72 | on addressable extents each step of the decoding loop matches the reference decoding of the axes walked so far |
| ArrayAddressing.NumToPosDecodes | src/stuff/logic/Array.java:66-74 | `NumToPos` of a non-negative index on addressable extents succeeds and is the reference row-major decoding |
| ArrayAddressing.AddressFromFlat | src/stuff/logic/Array.java:98-101 | on an in-range position the index walk never wraps, and its partial index is the row-major index of the axes walked |
| ArrayAddressing.AddressInBounds | src/stuff/logic/Array.java:96-103 | the index walk of an in-range position reaches its row-major index |
| ArrayAddressing.GetNumInBounds | src/stuff/logic/Array.java:96-103 | `getNum` of an in-range position reads its row-major cell |
| ArrayAddressing.AddressingRoundTrip | src/stuff/logic/Array.java:66-74 | every index below the product decodes to an in-range position, and `getNum` of that position reads cell `n` back |
| ArrayAddressing.PositionRoundTrip | src/stuff/logic/Array.java:96-103 | decoding the row-major index of an in-range position gives the position back |
| ArrayProperties.ClampedThree | src/stuff/logic/Array.java:76-87 | three clamped extents hold at most 4096 cells, are addressable, and their `productAll` never wraps |
| ArrayProperties.GetNumZeroFill | src/stuff/logic/Array.java:96-103 | on a shaped array, stale count included, `getNum` of any non-negative three-axis position is the zero-fill reading |
| ArrayProperties.OperandFound | src/stuff/logic/Array.java:133 | `b.getNum(NumToPos(l, i))` is `b`'s zero-fill reading at the position `i` has under the receiver's extents |
| ArrayProperties.OperandsFound | src/stuff/logic/Array.java:132-134 | on shaped arrays whose count does not pass the receiver's storage, every operand of the loop is found and is that zero-fill reading |
| ArrayProperties.ElementwiseZeroFill | src/stuff/logic/Array.java:131-153 | on shaped arrays whose count does not pass the receiver's storage, each cell below the count is combined with the operand's zero-fill reading, so other shapes are cropped or zero-padded, and the cells from the count on are kept; the result stays shaped, and well-formed if the receiver was; only `divEach` can fail, exactly when some operand is 0 |
| ArrayProperties.OperandSameShape | src/stuff/logic/Array.java:133 | with equal dims the operand of cell `i` is `b.s[i]` |
| ArrayProperties.AddSubInverse | src/stuff/logic/Array.java:131-141 | `minus(b)` after `add(b)` restores the array, for equal shapes and any count that does not pass the storage |
| ArrayProperties.AddCommutes | src/stuff/logic/Array.java:131-135 | `add` commutes on arrays of the same shape |
| ArrayProperties.ElementwiseStale | src/stuff/logic/Array.java:132-133 | a cached count larger than the storage makes every elementwise operation throw |
| ArrayProperties.ProdDivInverse | src/stuff/logic/Array.java:119-129 | `div(b)` after `prod(b)` restores the array for any non-zero `b` |
| ArrayProperties.SumAllProd | src/stuff/logic/Array.java:110-123 | `sumAll` after `prod(b)` is `b` times the old total |
| ArrayProperties.SumAllAdd | src/stuff/logic/Array.java:110-135 | `sumAll` is additive over `add` on arrays of the same shape |
| ArrayProperties.SumUpdate | src/stuff/logic/Array.java:110-116 | overwriting one cell changes `sumAll` by the difference |
| ArrayProperties.ShuffleKeepsSum | src/stuff/logic/Array.java:186-194 | `shuffle` leaves `sumAll` unchanged |
| ArrayProperties.ChangeThenGet | src/stuff/logic/Array.java:196-205 | on a shaped array, `Change(pos, v)` at an in-range position keeps the array shaped (well-formed if it was), and `getNum(pos)` then reads `v` |
| ArrayProperties.ChangeKeepsOthers | src/stuff/logic/Array.java:196-205 | every other in-range position reads what it read before the `Change` |
| ArrayProperties.ChangeOverloadsAgree | src/stuff/logic/Array.java:196-209 | `Change(int[])` at an in-range position is `Change(int)` at its row-major index |
| ArrayProperties.ResizeCellRead | src/stuff/logic/Array.java:218-220 | for any shaped array, stale count included, each new cell of a lossy resize to three target dims is the old zero-fill reading at the position the index has under the new extents |
| ArrayProperties.ResizePadCrop | src/stuff/logic/Array.java:217-223 | a lossy resize of a shaped array, stale count included, to three target dims succeeds with the clamped dims, a storage of their product, and `All` unchanged; the result is shaped again; every new cell is the old zero-fill reading of its new-shape position |
| ArrayProperties.ResizeAtPosition | src/stuff/logic/Array.java:217-223 | after a lossy resize of a shaped array to three target dims every position inside the new extents holds the old value at that same position, or 0 when it lay outside the old extents |
| ArrayProperties.ResizeTwice | src/stuff/logic/Array.java:211-223 | a second lossy resize of the stale array the first left behind, both to three target dims, holds, at each position inside the final extents, the original value when the intermediate extents also contain it and 0 when the first resize cropped it |
| ArrayProperties.ResizeLosslessRoundTrip | src/stuff/logic/Array.java:211-216 | a lossless resize to a shape of the same product only relabels the dims and stays well-formed; resizing losslessly back restores the array |
| ArrayProperties.ResizeScenario | src/stuff/logic/Array.java:217-223 | resizing `(2, 1, 2)` holding `1 2 3 4` to `(1, 1, 4)` gives `1 2 0 0` |
| ArrayProperties.LimitIdempotent | src/stuff/logic/Array.java:76-80 | clamping twice is clamping once |
| ArrayProperties.FromDimsThree | src/stuff/logic/Array.java:31-37 | `Array(int...)` with three dims builds a well-formed array that reads 0 at every non-negative position |
| ArrayProperties.LengthOfFromDims | src/stuff/logic/Array.java:225-230 | `Length()` of `Array(int...)` reports the clamped extents |
| ArrayProperties.FromValuesReads | src/stuff/logic/Array.java:39-44 | `Array(double...)` stores value `i` at position `(0, 0, i)` |
| ArrayProperties.FromValuesShaped | src/stuff/logic/Array.java:39-44 | `Array(double...)` of at least one value is shaped, and it is well-formed exactly when it holds at most 16 values, its last extent being unclamped |
| ArrayProperties.DotProdSymmetric | src/stuff/logic/Array.java:155-160 | `dotProd` as written is symmetric, failures included |
| ArrayProperties.CrossTermIsCross3 | src/stuff/logic/Array.java:182 | the value step `i` of the `crossProd` loop computes is component `i` of the 3-D cross product |
| ArrayProperties.CrossLoopComputes | src/stuff/logic/Array.java:181-183 | the `crossProd` loop over operands of at least three cells writes their cross product into cells 0..2 of a result of at least three cells and keeps the rest |
| DescriptorProperties.DescriptorSections | src/stuff/logic/Array.java:18-21 | the two bracketed sections of a descriptor of tokens are found exactly where they were put |
| DescriptorProperties.DescriptorTokens | src/stuff/logic/Array.java:46-64 | `StringToIntArray` and `StringToDoubleArray` of joined tokens parse each token, rejected ones becoming 1 and 0 |
| DescriptorProperties.FromTextDescriptor | src/stuff/logic/Array.java:16-29 | a descriptor with three dims tokens yields the clamped parsed dims, a well-formed array, and the parsed values when their count equals the product, zeros otherwise |
| DescriptorProperties.FromTextFewDims | src/stuff/logic/Array.java:16-29 | fewer than three dims tokens give the fallback array |
| DescriptorProperties.FromTextNegativeProduct | src/stuff/logic/Array.java:16-29 | unclamped trailing dims that make the product negative give the fallback array |
| DescriptorProperties.FromTextNoClose | src/stuff/logic/Array.java:16-29 | a text without `]`, or without `}`, gives the fallback array |
| DescriptorProperties.FromTextScenario | src/stuff/logic/Array.java:16-29 | `"[2 1 2] {1 2 3 4}"` is the `(2, 1, 2)` array holding `1 2 3 4` |
| DescriptorProperties.ScenarioReads | src/stuff/logic/Array.java:96-103 | in that array `(1, 0, 1)` reads 4, and `(1, 0, 2)`, past the last extent, reads 0 |
| VectorAlgebra.DotPrefixSymmetric | src/stuff/logic/Array.java:157-158 | the dot-product sum does not depend on operand order |
| VectorAlgebra.CrossSelfZero | src/stuff/logic/Array.java:182 | the cross formula applied to a vector and itself gives the zero vector |
| VectorAlgebra.CrossAnticommutes | src/stuff/logic/Array.java:182 | swapping the operands of the cross formula negates each component |
| VectorAlgebra.CrossOrthogonal | src/stuff/logic/Array.java:182 | the cross formula's result is orthogonal to its first operand |
| VectorAlgebra.LoopFormulaIsCross3 | src/stuff/logic/Array.java:182 | component `i` of the loop formula, with its `% 3` indices, is component `i` of the cross product |
| ArrayFixes.GetNumAtReadsExtents | src/stuff/logic/Array.java:105-108 | as written, `getNum(1)` on `(2, 1, 2)` holding `1 2 3 4` returns the extent 1 while cell 1 holds 2, and `getNum(3)` throws |
| ArrayFixes.GetNumAtFixed | src/stuff/logic/Array.java:105-108 | corrected `getNum(int)`: 0 outside `[0, All)`; inside, the stored value `s[pos]`, failing only past a stale storage |
| ArrayFixes.GetNumAtFixedAgrees | src/stuff/logic/Array.java:105-108 | corrected `getNum(n)` equals `getNum(NumToPos(l, n))` on well-formed arrays |
| ArrayFixes.ResizeLeavesStaleCount | src/stuff/logic/Array.java:211-223 | as written, a lossy resize to fewer cells keeps the old `All` over a shorter storage, and a later `add` throws |
| ArrayFixes.ResizeStaleExample | src/stuff/logic/Array.java:211-223 | `(2, 1, 2)` resized to `(1, 1, 2)` keeps `All = 4` over 2 cells |
| ArrayFixes.ResizeFixed | src/stuff/logic/Array.java:211-223 | corrected `Resize`: same dims and storage as written, and a lossy one refreshes `All` to the storage length |
| ArrayFixes.ResizeFixedWellFormed | src/stuff/logic/Array.java:211-223 | the corrected `Resize` keeps a well-formed array well-formed in both modes |
| ArrayFixes.CrossProdAsWritten | src/stuff/logic/Array.java:178-184 | as written, `crossProd` succeeds exactly when the guard holds, and then returns the fallback array |
| ArrayFixes.CrossProdCounterexample | src/stuff/logic/Array.java:178-184 | `(1, 0, 0) x (0, 1, 0)` is the one-cell fallback array rather than `(0, 0, 1)` |
| ArrayFixes.Vector3 | src/stuff/logic/Array.java:39-44 | a three-value row vector is well-formed and holds the values |
| ArrayFixes.CrossProdFixed | src/stuff/logic/Array.java:178-184 | the corrected cross product is always a well-formed `(1, 1, 3)` vector; for operands of three cells it is what the source loop writes into a zero `(1, 1, 3)` vector, which is the cross product |
| ArrayFixes.CrossProdFixedLaws | src/stuff/logic/Array.java:182 | the corrected cross product is anticommutative, zero for a vector with itself, and orthogonal to its first operand |
| ArrayFixes.DotProdThrows | src/stuff/logic/Array.java:155-160 | as written, `dotProd` of any array with three dims throws |
| ArrayFixes.DotProdFixed | src/stuff/logic/Array.java:155-160 | the corrected dot product over the cells both storages hold equals what `dotProd` as written returns whenever its `l[3]` bound is the shorter storage's length, and a vector's product with itself is never negative |
| ArrayFixes.DotProdFixedLaws | src/stuff/logic/Array.java:155-160 | the corrected dot product is symmetric and gives 14 for `(1, 2, 3)` with itself |
| ArrayFixes.DotSelfNonneg | src/stuff/logic/Array.java:157-158 | a vector's dot product with itself is never negative |
| ArrayFixes.FallbackUnusable | src/stuff/logic/Array.java:24-28 | as written, the fallback array has one extent, so `Length()` and `getNum` at `(0, 0, 0)` throw on it |
| ArrayFixes.FromTextFixed | src/stuff/logic/Array.java:24-28 | the corrected constructor gives either the `1 x 1 x 1` fallback or what the code parses |
| ArrayFixes.FromTextFixedUsable | src/stuff/logic/Array.java:24-28 | with the corrected fallback every constructed array has three clamped extents and a consistent count, `Length()` never throws, and the fallback reads its single cell |
| AFuncCatalog.Symbol | src/stuff/logic/AFunc.java:5-25 | the `symbol` field, which `toString()` returns, is never empty; that no two constants share one is `SymbolInjective`, and that the lookup by it finds the constant is `SymbolRoundTrip` |
| AFuncCatalog.Ordinal | src/stuff/logic/AFunc.java:5-18 | each constant sits at its declaration position in `all` |
| AFuncCatalog.FindFrom | src/stuff/logic/AFunc.java:18-20 | a lookup helper over `all` and `symbol` (the enum has no lookup method), there to state `SymbolRoundTrip`: it finds a constant with the symbol, or none of the searched constants has it |
| AFuncCatalog.FromSymbol | src/stuff/logic/AFunc.java:18-20 | the same lookup helper over all of `all`, there to state `SymbolRoundTrip`: what it finds has the symbol looked up |
| AFuncCatalog.AllDistinct | src/stuff/logic/AFunc.java:5-18 | `all` lists eleven constants, no two alike |
| AFuncCatalog.SymbolInjective | src/stuff/logic/AFunc.java:5-15 | no two constants share a symbol |
| AFuncCatalog.SymbolRoundTrip | src/stuff/logic/AFunc.java:20-29 | looking up a constant's symbol (the value `toString()` returns) finds that constant; a symbol no constant has finds nothing |
| VFuncCatalog.VectorEntry | src/stuff/logic/VFunc.java:20-27 | the first constructor fills only `op2`, with `scalar` and `cross` false |
| VFuncCatalog.ScalarEntry | src/stuff/logic/VFunc.java:29-36 | the second constructor fills only `op1` and sets `scalar` as given, `cross` false |
| VFuncCatalog.Fields | src/stuff/logic/VFunc.java:6-9 | each constant is built with exactly one callable, `op1` exactly for the scalar `dotV`, and never `op3` or `cross`; which helper it delegates to is `FieldsDelegate` |
| VFuncCatalog.GetSymbol | src/stuff/logic/VFunc.java:38-40 | `getSymbol()` of a constant is, whatever the helpers are, the symbol of the matching `AFunc` operation (`Add`, `Sub`, `DotProd`, `CrossProd`); `AllDistinctSymbols` shows the four are distinct |
| VFuncCatalog.FieldsDelegate | src/stuff/logic/VFunc.java:6-9 | each constant's callable is its own helper |
| VFuncCatalog.AllDistinctSymbols | src/stuff/logic/VFunc.java:6-12 | `all` lists the four constants, and their symbols are pairwise distinct |

## Left out

- `src/stuff/world/MatrixBlock.java` (game block, UI table and save format)
  is not part of this model.
- `stuff.AdditionalFunction` is not part of this model. The four vector
  helpers that `VFunc` delegates to are passed in as a `Library` of function
  values.
- `Integer.parseInt` and `Double.parseDouble` are parameters of type
  `string -> Option<...>`. The model does not restate which texts Java accepts.
- Doubles are modelled as `real`, so IEEE rounding, overflow to infinity and
  NaN are absent. A division by zero in `div` or `divEach`, which yields an
  infinity or NaN in Java without throwing, is `Err(NonFinite)`. The inverse
  lemmas (`AddSubInverse`, `ProdDivInverse`) hold over reals only.
- `java.util.Random` in `shuffle` is replaced by the sequence of drawn swap
  indices, an input. Nothing is claimed about the distribution.
- State left behind by an exception is not modelled. Java's elementwise loops
  and `crossProd` write some cells before throwing, while the model returns
  only `Err`.
- Aliasing is not modelled. `Limit` clamps the caller's array in place,
  `Array(int...)` and `Array(double...)` keep the caller's array, and the
  model copies values instead.
- `productAll(double[])` (Array.java:89-94) is not called by any modelled
  operation and is not modelled.
- The commented-out `ArrMultiplication` (Array.java:162-176) and `toString`
  (Array.java:232-255) are not modelled.
- `AFunc.toString()` returns `symbol` and is modelled by `AFuncCatalog.Symbol`
  itself.
- Behaviour of the code worth noting, all of it modelled:
  - A descriptor missing `[` still parses, because the slice then starts at 0.
    A missing `]` or `}`, or a closing bracket before the start, falls back.
  - Dims lists longer than three are kept, and their trailing entries are
    multiplied into `productAll` unclamped.
  - The fallback array has the one-entry dims list `[1]`.
  - Resizing `(2, 1, 2)` holding `1 2 3 4` to `(1, 1, 4)` gives `1 2 0 0`,
    which is what the crop-or-pad rule gives.
  - `All` is not kept consistent by `Resize`.
- ArrayProperties.ElementwiseZeroFill: stated for shaped receiver and
  operand (three positive extents, product within `int`, storage of that
  length). For other dims lists only the shape facts of
  `ArrayEngine.Elementwise` and the failure of `ElementwiseStale` are proved.
- DescriptorProperties.FromTextDescriptor: stated for exactly three dims
  tokens. Longer dims lists are covered only by `ArrayEngine.FromText`,
  `FromTextNegativeProduct` and `ArrayFixes.FromTextFixedUsable`.
- ArrayProperties.ResizePadCrop: stated for exactly three target dims, and
  so are ResizeCellRead, ResizeAtPosition and ResizeTwice. A longer target
  has more dims than a shaped array, so `ArrayEngine.Resize` throws when its
  product is positive and gives an empty storage when it is zero. Arrays
  with longer dims lists of their own are covered only by that contract.
- ArrayProperties.FromDimsThree: stated for exactly three dims. Longer lists
  are covered by the contract of `ArrayEngine.FromDims`.

## Findings

| source | as written | input that shows it | evidently intended | confidence | as-written member | corrected member |
|---|---|---|---|---|---|---|
| src/stuff/logic/Array.java:105-108 | `getNum(int pos)` returns the extent `l[pos]`, and throws for `pos >= l.length` | `(2, 1, 2)` holding `1 2 3 4`: `getNum(1)` is 1, not 2; `getNum(3)` throws | return the stored value `s[pos]` | not executed | ArrayFixes.GetNumAtReadsExtents | ArrayFixes.GetNumAtFixedAgrees |
| src/stuff/logic/Array.java:211-223 | a lossy `Resize` never reassigns `All` | `(2, 1, 2)` resized to `(1, 1, 2)`: `All` stays 4 over 2 cells, and a later `add` throws | `All` equals the new product | not executed | ArrayFixes.ResizeLeavesStaleCount | ArrayFixes.ResizeFixedWellFormed |
| src/stuff/logic/Array.java:178-184 | the seed `"[3] {0 0 0}"` falls back to the one-cell array, so `crossProd` returns that array or throws | `(1, 0, 0) x (0, 1, 0)` returns `([1], [1])` instead of `(0, 0, 1)` | a 3-vector holding the cross product | not executed | ArrayFixes.CrossProdCounterexample | ArrayFixes.CrossProdFixedLaws |
| src/stuff/logic/Array.java:157 | `dotProd` bounds its loop by `l[3]`, which a three-axis dims list does not have | any two arrays built by `Array(int...)` with three dims throw | sum over the cells both storages hold | not executed | ArrayFixes.DotProdThrows | ArrayFixes.DotProdFixed |
| src/stuff/logic/Array.java:9-10 | the fallback dims `{1}` has one entry | `Array("")` then `Length()` or `getNum({0, 0, 0})` throws | a `1 x 1 x 1` array holding 1 | not executed | ArrayFixes.FallbackUnusable | ArrayFixes.FromTextFixedUsable |

=== FILE: afunc.dfy ===
/** The operation catalogue `stuff.logic.AFunc`: eleven array operations in
    declaration order, each labelled by a display symbol. */
module AFuncCatalog {
  import opened Outcomes

  datatype AFunc =
    | Add | Sub | Mul | DotProd | CrossProd | Sum | ProdAll
    | Change | Get | Shuffle | Resize

  /** The `symbol` field, which `toString()` also returns; never empty.
      `SymbolInjective` shows that it names its constant. */
  function Symbol(f: AFunc): (r: string)
    ensures |r| >= 1
  {
    match f
    case Add => "+"
    case Sub => "-"
    case Mul => "*"
    case DotProd => "·"
    case CrossProd => "x"
    case Sum => "sum"
    case ProdAll => "prod"
    case Change => "change"
    case Get => "pick"
    case Shuffle => "shuffle"
    case Resize => "resize"
  }

  /** `AFunc.all = values()`: every constant once, in declaration order. */
  const All: seq<AFunc> :=
    [Add, Sub, Mul, DotProd, CrossProd, Sum, ProdAll, Change, Get, Shuffle, Resize]

  /** `ordinal()`: the position of the constant in the declaration. */
  function Ordinal(f: AFunc): (r: nat)
    ensures r < |All| && All[r] == f
  {
    match f
    case Add => 0
    case Sub => 1
    case Mul => 2
    case DotProd => 3
    case CrossProd => 4
    case Sum => 5
    case ProdAll => 6
    case Change => 7
    case Get => 8
    case Shuffle => 9
    case Resize => 10
  }

  /** A lookup over `all` by `symbol`, searching from index `k` on. The enum
      has no such method; the lookup exists so that `SymbolRoundTrip` can
      say that the symbols identify the constants. */
  function FindFrom(sym: string, k: nat): (r: Option<AFunc>)
    requires k <= |All|
    ensures r.Some? ==> Symbol(r.value) == sym
    ensures r.None? ==> forall i :: k <= i < |All| ==> Symbol(All[i]) != sym
    decreases |All| - k
  {
    if k == |All| then None
    else if Symbol(All[k]) == sym then Some(All[k])
    else FindFrom(sym, k + 1)
  }

  /** The constant displayed as `sym`, if any: the lookup over all of
      `all`. */
  function FromSymbol(sym: string): (r: Option<AFunc>)
    ensures r.Some? ==> Symbol(r.value) == sym
  {
    FindFrom(sym, 0)
  }

  /** `values()` lists eleven constants, no two alike. */
  lemma AllDistinct()
    ensures |All| == 11
    ensures forall i, j :: 0 <= i < j < |All| ==> All[i] != All[j]
  {
    forall i, j | 0 <= i < j < |All|
      ensures All[i] != All[j]
    {
      assert Ordinal(All[i]) == i && Ordinal(All[j]) == j by {
        OrdinalInverse(i);
        OrdinalInverse(j);
      }
    }
  }

  lemma OrdinalInverse(i: nat)
    requires i < |All|
    ensures Ordinal(All[i]) == i
  {
  }

  /** No two constants share a symbol, so a symbol names its constant. */
  lemma SymbolInjective(f: AFunc, g: AFunc)
    requires Symbol(f) == Symbol(g)
    ensures f == g
  {
  }

  /** Looking a constant up by its symbol finds it; a symbol no constant has
      finds nothing. */
  lemma SymbolRoundTrip(f: AFunc, sym: string)
    ensures FromSymbol(Symbol(f)) == Some(f)
    ensures (forall g: AFunc :: Symbol(g) != sym) ==> FromSymbol(sym) == None
  {
    var r := FromSymbol(Symbol(f));
    if r.Some? {
      SymbolInjective(r.value, f);
    }
  }
}

=== FILE: array_addressing.dfy ===
/** The Java-level addressing of the engine (`NumToPos`, the index walk of
    `getNum`) agrees with the row-major reference of `Radix` whenever the
    extents are positive and their product fits in an `int`; the two are then
    inverse bijections between `[0, product)` and the in-range positions. */
module ArrayAddressing {
  import opened Outcomes
  import opened JavaInt
  import Radix
  import opened ArrayEngine

  /** Extents the Java arithmetic handles without wrapping. */
  predicate Addressable(l: seq<int32>) {
    Radix.Positive(l) && Radix.Prod(l) <= MAX
  }

  lemma {:induction false} NumToPosFromDecodes(l: seq<int32>, num: int32, k: nat, buffer: int32)
    requires Addressable(l) && num >= 0 && k <= |l|
    requires buffer == Radix.Prod(l[k..])
    ensures buffer >= 1
    ensures NumToPosFrom(l, num, k, buffer).Ok?
    ensures NumToPosFrom(l, num, k, buffer).value == Radix.Coords(l[..k], Radix.Quot(num, buffer))
  {
    Radix.ProdSliceBound(l, k, |l|);
    assert l[k..|l|] == l[k..];
    if k > 0 {
      var next := DecodeStep(l, num, k, buffer);
      NumToPosFromDecodes(l, num, k - 1, next);
      CoordsStep(l, k, num, buffer);
      var rest := NumToPosFrom(l, num, k - 1, next).value;
      assert rest == Radix.Coords(l[..k - 1], Radix.Quot(num, buffer * l[k - 1]));
      assert NumToPosFrom(l, num, k, buffer) == Ok(rest + [(num / buffer) % l[k - 1]]);
    }
  }

  /** One iteration of the `NumToPos` loop, on addressable extents. */
  lemma DecodeStep(l: seq<int32>, num: int32, k: nat, buffer: int32) returns (next: int32)
    requires Addressable(l) && num >= 0 && 1 <= k <= |l|
    requires buffer == Radix.Prod(l[k..])
    ensures next == Radix.Prod(l[k - 1..]) && next == buffer * l[k - 1]
    ensures buffer >= 1 && num / buffer >= 0
    ensures NumToPosFrom(l, num, k - 1, next).Ok? ==>
      NumToPosFrom(l, num, k, buffer) == Ok(NumToPosFrom(l, num, k - 1, next).value + [(num / buffer) % l[k - 1]])
  {
    next := StepBuffer(l, k, buffer);
    Radix.DivNonneg(num, buffer);
    var q := JDiv(num, buffer);
    assert JRem(q, l[k - 1]) == q % l[k - 1];
  }

  /** Peeling the last axis off the reference decoding. */
  lemma CoordsStep(l: seq<int32>, k: nat, num: nat, buffer: int)
    requires Radix.Positive(l) && 1 <= k <= |l| && buffer >= 1
    ensures Radix.Coords(l[..k], Radix.Quot(num, buffer))
         == Radix.Coords(l[..k - 1], Radix.Quot(num, buffer * l[k - 1])) + [(num / buffer) % l[k - 1]]
  {
    var c := l[k - 1];
    Radix.DivNonneg(num, buffer);
    Radix.DivNonneg(num, buffer * c);
    Radix.DivDiv(num, buffer, c);
    assert l[..k][..k - 1] == l[..k - 1];
    assert Radix.Positive(l[..k]);
  }

  /** One step of the buffer chain: it grows by the extent it passes, and the
      product never wraps. */
  lemma StepBuffer(l: seq<int32>, k: nat, buffer: int32) returns (next: int32)
    requires Addressable(l) && 1 <= k <= |l|
    requires buffer == Radix.Prod(l[k..])
    ensures buffer >= 1 && l[k - 1] >= 1
    ensures next == buffer * l[k - 1] == Radix.Prod(l[k - 1..])
    ensures Wrap(buffer * l[k - 1]) == next
  {
    var c := l[k - 1];
    Radix.SuffixStep(l, k);
    Radix.ProdSliceBound(l, k, |l|);
    assert l[k..|l|] == l[k..];
    Radix.ProdSliceBound(l, k - 1, |l|);
    assert l[k - 1..|l|] == l[k - 1..];
    assert c * buffer == buffer * c;
    next := buffer * c;
  }

  /** `NumToPos` decodes a non-negative index into the reference position. */
  lemma NumToPosDecodes(l: seq<int32>, num: int32)
    requires Addressable(l) && num >= 0
    ensures NumToPos(l, num).Ok? && NumToPos(l, num).value == Radix.Coords(l, num)
  {
    assert l[|l|..] == [];
    NumToPosFromDecodes(l, num, |l|, 1);
    assert l[..|l|] == l;
  }

  lemma {:induction false} AddressFromFlat(l: seq<int32>, p: seq<int32>, k: nat, sPos: int32, buffer: int32)
    requires Addressable(l) && Radix.InBounds(l, p) && k <= |l|
    requires buffer == Radix.Prod(l[k..])
    requires sPos == Radix.Flat(l[k..], p[k..])
    ensures 0 <= Radix.Flat(l, p) <= MAX
    ensures AddressFrom(l, p, k, sPos, buffer) == Ok(Index(Radix.Flat(l, p)))
  {
    Radix.FlatBound(l, p);
    if k == 0 {
      assert l[0..] == l && p[0..] == p;
    } else {
      var sPos', next := EncodeStep(l, p, k, sPos, buffer);
      AddressFromFlat(l, p, k - 1, sPos', next);
    }
  }

  /** One iteration of the index walk of `getNum`, on an in-range position:
      no arithmetic wraps, and the partial index is the row-major index of
      the axes walked so far. */
  lemma EncodeStep(l: seq<int32>, p: seq<int32>, k: nat, sPos: int32, buffer: int32)
    returns (sPos': int32, next: int32)
    requires Addressable(l) && Radix.InBounds(l, p) && 1 <= k <= |l|
    requires buffer == Radix.Prod(l[k..])
    requires sPos == Radix.Flat(l[k..], p[k..])
    ensures next == Radix.Prod(l[k - 1..])
    ensures sPos' == Radix.Flat(l[k - 1..], p[k - 1..])
    ensures AddressFrom(l, p, k, sPos, buffer) == AddressFrom(l, p, k - 1, sPos', next)
  {
    next := StepBuffer(l, k, buffer);
    var f := TailIndex(l, p, k);
    sPos' := sPos + p[k - 1] * buffer;
    assert sPos' == f;
  }

  /** The row-major index of the axes from `k-1` on, which stays below the
      product and so never wraps. */
  lemma TailIndex(l: seq<int32>, p: seq<int32>, k: nat) returns (f: int32)
    requires Addressable(l) && Radix.InBounds(l, p) && 1 <= k <= |l|
    ensures f == Radix.Flat(l[k - 1..], p[k - 1..])
    ensures f == p[k - 1] * Radix.Prod(l[k..]) + Radix.Flat(l[k..], p[k..])
  {
    Radix.FlatTail(l, p, k);
    assert Radix.InBounds(l[k - 1..], p[k - 1..]);
    Radix.FlatBound(l[k - 1..], p[k - 1..]);
    Radix.ProdSliceBound(l, k - 1, |l|);
    assert l[k - 1..|l|] == l[k - 1..];
    f := Radix.Flat(l[k - 1..], p[k - 1..]);
  }

  /** The index walk of `getNum` on an in-range position is its row-major index. */
  lemma AddressInBounds(l: seq<int32>, p: seq<int32>)
    requires Addressable(l) && Radix.InBounds(l, p)
    ensures 0 <= Radix.Flat(l, p) <= MAX
    ensures AddressFrom(l, p, |p|, 0, 1) == Ok(Index(Radix.Flat(l, p)))
  {
    assert l[|l|..] == [] && p[|p|..] == [];
    AddressFromFlat(l, p, |l|, 0, 1);
  }

  /** `getNum` reads the row-major cell of an in-range position. */
  lemma GetNumInBounds(a: Arr, p: seq<int32>)
    requires Addressable(a.l) && |a.s| == Radix.Prod(a.l) && Radix.InBounds(a.l, p)
    ensures 0 <= Radix.Flat(a.l, p) < |a.s|
    ensures GetNum(a, p) == Ok(a.s[Radix.Flat(a.l, p)])
  {
    AddressInBounds(a.l, p);
    Radix.FlatBound(a.l, p);
  }

  /** Addressing round trip: every index below the product decodes to an
      in-range position, and `getNum` of that position reads the same cell. */
  lemma AddressingRoundTrip(a: Arr, n: int32)
    requires Addressable(a.l) && |a.s| == Radix.Prod(a.l) && 0 <= n < Radix.Prod(a.l)
    ensures NumToPos(a.l, n).Ok?
    ensures Radix.InBounds(a.l, NumToPos(a.l, n).value)
    ensures GetNum(a, NumToPos(a.l, n).value) == Ok(a.s[n])
  {
    NumToPosDecodes(a.l, n);
    var p := NumToPos(a.l, n).value;
    Radix.CoordsInBounds(a.l, n);
    Radix.FlatCoords(a.l, n);
    Radix.DivModUnique(n, Radix.Prod(a.l), 0, n);
    assert Radix.Flat(a.l, p) == n;
    GetNumInBounds(a, p);
  }

  /** The other direction: decoding the index of an in-range position gives
      the position back. */
  lemma PositionRoundTrip(l: seq<int32>, p: seq<int32>)
    requires Addressable(l) && Radix.InBounds(l, p)
    ensures 0 <= Radix.Flat(l, p) <= MAX
    ensures NumToPos(l, Radix.Flat(l, p) as int32) == Ok(p)
  {
    Radix.FlatBound(l, p);
    NumToPosDecodes(l, Radix.Flat(l, p) as int32);
    Radix.CoordsFlat(l, p);
  }
}

=== FILE: array_engine.dfy ===
/** The array engine `stuff.logic.Array`, modelled as the Java code behaves:
    a dims list `l` (entries 0..2 meant to lie in [1, 16]), a flat storage `s`
    addressed row-major with the last axis fastest, and a cached cell count
    `All`. Every point where the Java code would throw yields `Err`. */
module ArrayEngine {
  import opened Outcomes
  import opened JavaInt
  import JavaText
  import Radix
  import VectorAlgebra

  /** `length_limit`: the largest extent `Limit` allows on axes 0..2. */
  const LENGTH_LIMIT: int32 := 16

  /** The three fields of an `Array` object. */
  datatype Arr = Arr(l: seq<int32>, s: seq<real>, All: int32)

  /** The array a failed descriptor parse leaves behind: `Default1 = {1}` and
      `Default2 = {1d}`, so its dims list has ONE entry. */
  const Fallback: Arr := Arr([1], [1.0], 1)

  /** Entries 0..2 exist and lie in [1, 16]. */
  predicate Clamped(l: seq<int32>) {
    |l| >= 3 && forall i :: 0 <= i < 3 ==> 1 <= l[i] <= LENGTH_LIMIT
  }

  /** The consistent three-axis arrays: three clamped extents, and a storage
      exactly as long as their product and as the cached count. */
  predicate WellFormed(a: Arr) {
    && |a.l| == 3
    && Clamped(a.l)
    && a.All == Radix.Prod(a.l)
    && |a.s| == a.All
  }

  // -----------------------------------------------------------------------
  // Dims helpers: Limit, productAll

  /** `Limit(int[])`: clamps entries 0..2 into [1, 16] and leaves the rest;
      a list shorter than three makes it index past the end. */
  function Limit(l: seq<int32>): (r: Result<seq<int32>>)
    ensures r.Err? <==> |l| < 3
    ensures r.Ok? ==> Clamped(r.value) && |r.value| == |l| && r.value[3..] == l[3..]
    ensures r.Ok? ==> forall i :: 0 <= i < 3 ==>
      && (1 <= l[i] <= LENGTH_LIMIT ==> r.value[i] == l[i])
      && (l[i] < 1 ==> r.value[i] == 1)
      && (l[i] > LENGTH_LIMIT ==> r.value[i] == LENGTH_LIMIT)
  {
    if |l| < 3 then Err(IndexOutOfBounds)
    else Ok([Clamp(l[0], 1, LENGTH_LIMIT), Clamp(l[1], 1, LENGTH_LIMIT), Clamp(l[2], 1, LENGTH_LIMIT)] + l[3..])
  }

  /** `productAll(int[])`: the product of ALL entries (trailing unclamped ones
      included), in wrapping 32-bit arithmetic. Whatever the entries, it is
      the true product wrapped once; it is the true product itself whenever
      the entries are positive and that product fits in an `int`. */
  function ProductAll(l: seq<int32>): (r: int32)
    ensures r == Wrap(Radix.Prod(l))
    ensures Radix.Positive(l) && Radix.Prod(l) <= MAX ==> r == Radix.Prod(l)
  {
    if |l| == 0 then 1
    else
      Radix.ProdDropLast(l);
      WrapTimes(Radix.Prod(l[..|l| - 1]), l[|l| - 1]);
      Wrap(ProductAll(l[..|l| - 1]) * l[|l| - 1])
  }

  /** Adding a multiple of 2^32 does not change the stored `int`. */
  lemma WrapShift(x: int, k: int)
    ensures Wrap(x + k * MODULUS) == Wrap(x)
  {
    var q, m := (x - MIN) / MODULUS, (x - MIN) % MODULUS;
    assert x + k * MODULUS - MIN == (q + k) * MODULUS + m;
    Radix.DivModUnique(x + k * MODULUS - MIN, MODULUS, q + k, m);
  }

  /** Wrapping between the factors of a product changes nothing: the
      running product of `productAll` may wrap at every step. */
  lemma WrapTimes(p: int, x: int)
    ensures Wrap(Wrap(p) * x) == Wrap(p * x)
  {
    var k := (Wrap(p) - p) / MODULUS;
    assert Wrap(p) == p + k * MODULUS;
    assert Wrap(p) * x == p * x + (k * x) * MODULUS;
    WrapShift(p * x, k * x);
  }

  // -----------------------------------------------------------------------
  // Addressing: NumToPos and the index computation of getNum / Change

  /** The loop of `NumToPos` from axis `k-1` down to 0, `buffer` being the
      wrapped product of the extents after axis `k-1`:
      `count[j] = num / buffer % arr[j]`, a zero divisor throwing. */
  function NumToPosFrom(l: seq<int32>, num: int32, k: nat, buffer: int32): (r: Result<seq<int32>>)
    requires k <= |l|
    ensures r.Ok? ==> |r.value| == k
    ensures r.Err? ==> r.fault == Arithmetic
  {
    if k == 0 then Ok([])
    else if buffer == 0 || l[k - 1] == 0 then Err(Arithmetic)
    else
      var c := JRem(JDiv(num, buffer), l[k - 1]);
      var rest :- NumToPosFrom(l, num, k - 1, Wrap(buffer * l[k - 1]));
      Ok(rest + [c])
  }

  /** `NumToPos(arr, num)`: the position of linear index `num` under extents
      `arr`, last axis fastest. */
  function NumToPos(l: seq<int32>, num: int32): (r: Result<seq<int32>>)
    ensures r.Ok? ==> |r.value| == |l|
    ensures r.Err? ==> r.fault == Arithmetic
  {
    NumToPosFrom(l, num, |l|, 1)
  }

  /** Where a position lands: a storage index, or outside the extents. */
  datatype Address = Index(at: int32) | OutOfRange

  /** The loop of `getNum(int[])` (and, for three axes, of `Change`) from axis
      `k-1` down to 0: a coordinate not below its extent ends the walk as out
      of range; otherwise it adds `pos[i] * buffer` to the index. Reading an
      extent past the end of `l` throws. Negative coordinates are not rejected. */
  function AddressFrom(l: seq<int32>, pos: seq<int32>, k: nat, sPos: int32, buffer: int32): (r: Result<Address>)
    requires k <= |pos|
    ensures r.Err? <==> k > |l|
    ensures r.Err? ==> r.fault == IndexOutOfBounds
    ensures k <= |l| ==> (r == Ok(OutOfRange) <==> exists i :: 0 <= i < k && pos[i] >= l[i])
  {
    if k == 0 then Ok(Index(sPos))
    else if k - 1 >= |l| then Err(IndexOutOfBounds)
    else if pos[k - 1] < l[k - 1] then
      AddressFrom(l, pos, k - 1, Wrap(sPos + pos[k - 1] * buffer), Wrap(buffer * l[k - 1]))
    else Ok(OutOfRange)
  }

  /** `getNum(int[] pos)`: the stored value at a position, 0 as soon as a
      coordinate is not below its extent. A position longer than the dims
      list, or an index outside the storage, throws. */
  function GetNum(a: Arr, pos: seq<int32>): (r: Result<real>)
    ensures |pos| > |a.l| ==> r == Err(IndexOutOfBounds)
    ensures |pos| <= |a.l| && (exists i :: 0 <= i < |pos| && pos[i] >= a.l[i]) ==> r == Ok(0.0)
    ensures r.Err? ==> r.fault == IndexOutOfBounds
  {
    var addr :- AddressFrom(a.l, pos, |pos|, 0, 1);
    match addr
    case OutOfRange => Ok(0.0)
    case Index(k) => if 0 <= k < |a.s| then Ok(a.s[k]) else Err(IndexOutOfBounds)
  }

  /** `getNum(int pos)` as written: bounds-checked against `All`, but it
      returns the EXTENT `l[pos]`, not the stored value `s[pos]`, and throws
      when `pos` is past the end of the dims list. */
  function GetNumAt(a: Arr, pos: int32): (r: Result<real>)
    ensures pos < 0 || pos >= a.All ==> r == Ok(0.0)
    ensures 0 <= pos < a.All ==> (r.Ok? <==> pos < |a.l|)
    ensures 0 <= pos < a.All && pos < |a.l| ==> r.value == a.l[pos] as real
  {
    if pos >= a.All || pos < 0 then Ok(0.0)
    else if pos < |a.l| then Ok(a.l[pos] as real)
    else Err(IndexOutOfBounds)
  }

  // -----------------------------------------------------------------------
  // Reductions and scalar operations

  /** Sum of a sequence of doubles, accumulated from the front. */
  function Sum(s: seq<real>): real
  {
    if |s| == 0 then 0.0 else Sum(s[..|s| - 1]) + s[|s| - 1]
  }

  /** A sum of non-negative values is non-negative, and a sum of zeros is 0. */
  lemma {:induction false} SumSigns(s: seq<real>)
    ensures (forall i :: 0 <= i < |s| ==> s[i] >= 0.0) ==> Sum(s) >= 0.0
    ensures (forall i :: 0 <= i < |s| ==> s[i] == 0.0) ==> Sum(s) == 0.0
  {
    if |s| > 0 {
      SumSigns(s[..|s| - 1]);
    }
  }

  /** `sumAll()`: the total of the whole storage. An all-zero storage sums
      to 0, and one without negative cells to a non-negative total. */
  function SumAll(a: Arr): (r: real)
    ensures (forall i :: 0 <= i < |a.s| ==> a.s[i] >= 0.0) ==> r >= 0.0
    ensures (forall i :: 0 <= i < |a.s| ==> a.s[i] == 0.0) ==> r == 0.0
  {
    SumSigns(a.s);
    Sum(a.s)
  }

  /** `prod(double b)`: multiplies every stored value by `b`. */
  function Prod(a: Arr, b: real): (r: Arr)
    ensures r.l == a.l && r.All == a.All && |r.s| == |a.s|
    ensures forall i :: 0 <= i < |a.s| ==> r.s[i] == a.s[i] * b
  {
    a.(s := seq(|a.s|, i requires 0 <= i < |a.s| => a.s[i] * b))
  }

  /** `div(double b)`: divides every stored value by `b`; dividing a
      non-empty storage by 0 gives infinities or NaN. */
  function Div(a: Arr, b: real): (r: Result<Arr>)
    ensures r.Err? <==> b == 0.0 && |a.s| > 0
    ensures r.Ok? ==> r.value.l == a.l && r.value.All == a.All && |r.value.s| == |a.s|
    ensures r.Ok? ==> forall i :: 0 <= i < |a.s| ==> r.value.s[i] * b == a.s[i]
  {
    if |a.s| == 0 then Ok(a)
    else if b == 0.0 then Err(NonFinite)
    else Ok(a.(s := seq(|a.s|, i requires 0 <= i < |a.s| => a.s[i] / b)))
  }

  // -----------------------------------------------------------------------
  // Elementwise operations: add, minus, prodEach, divEach

  /** Evaluates `f(0)`, ..., `f(k-1)` in that order, stopping at the first fault. */
  function Collect(f: int32 -> Result<real>, k: int32): (r: Result<seq<real>>)
    requires k >= 0
    ensures r.Ok? <==> forall i: int32 :: 0 <= i < k ==> f(i).Ok?
    ensures r.Ok? ==> |r.value| == k && forall i: int32 :: 0 <= i < k ==> f(i) == Ok(r.value[i])
    ensures r.Err? ==> exists i: int32 :: 0 <= i < k && f(i) == Err(r.fault)
  {
    if k == 0 then Ok([])
    else
      var prev :- Collect(f, k - 1);
      var v :- f(k - 1);
      Ok(prev + [v])
  }

  datatype BinOp = Plus | Minus | Times | Over

  /** `x op y` on doubles, for a divisor that is not zero. */
  function Combine(op: BinOp, x: real, y: real): real
    requires op == Over ==> y != 0.0
  {
    match op
    case Plus => x + y
    case Minus => x - y
    case Times => x * y
    case Over => x / y
  }

  /** The operand cell `i` of the receiver is combined with:
      `b.getNum(NumToPos(l, i))`, decoded against the RECEIVER's dims. The
      compound assignment checks `s[i]`'s bounds before reading it. */
  function OperandAt(a: Arr, b: Arr, i: int32): Result<real>
  {
    if i < 0 || i >= |a.s| then Err(IndexOutOfBounds)
    else
      var pos :- NumToPos(a.l, i);
      GetNum(b, pos)
  }

  /** The operands of cells `0..All-1`, in loop order. */
  function Operands(a: Arr, b: Arr): (r: Result<seq<real>>)
    ensures r.Ok? ==> |r.value| == if a.All < 0 then 0 else a.All
  {
    var n: int32 := if a.All < 0 then 0 else a.All;
    Collect((i: int32) => OperandAt(a, b, i), n)
  }

  /** `s[i] op operands[i]` for the cells that have an operand; the rest kept. */
  function Combined(op: BinOp, s: seq<real>, operands: seq<real>): (r: seq<real>)
    requires op == Over ==> forall i :: 0 <= i < |operands| ==> operands[i] != 0.0
    ensures |r| == |s|
    ensures forall i :: 0 <= i < |s| ==>
      r[i] == if i < |operands| then Combine(op, s[i], operands[i]) else s[i]
  {
    seq(|s|, i requires 0 <= i < |s| =>
      if i < |operands| then Combine(op, s[i], operands[i]) else s[i])
  }

  /** The loop shared by `add`, `minus`, `prodEach` and `divEach`: cells
      `0..All-1` are combined with their operands; dims, count and the cells
      from `All` on are untouched. A zero divisor in `divEach` leaves a
      non-finite value. */
  function Elementwise(op: BinOp, a: Arr, b: Arr): (r: Result<Arr>)
    ensures r.Ok? ==> r.value.l == a.l && r.value.All == a.All && |r.value.s| == |a.s|
    ensures r.Err? <==> (Operands(a, b).Err? ||
      (op == Over && exists i :: 0 <= i < |Operands(a, b).value| && Operands(a, b).value[i] == 0.0))
    ensures r.Ok? ==> forall i :: 0 <= i < |a.s| ==>
      r.value.s[i] == if i < |Operands(a, b).value| then Combine(op, a.s[i], Operands(a, b).value[i]) else a.s[i]
    ensures r.Ok? ==> forall i :: 0 <= i < |a.s| && i >= a.All ==> r.value.s[i] == a.s[i]
  {
    var operands :- Operands(a, b);
    if op == Over && exists i :: 0 <= i < |operands| && operands[i] == 0.0 then Err(NonFinite)
    else Ok(a.(s := Combined(op, a.s, operands)))
  }

  /** `add(Array b)`: fails only where an operand lookup throws; otherwise
      `s[i] += operand` for every cell `i` below the count. */
  function Add(a: Arr, b: Arr): (r: Result<Arr>)
    ensures r.Ok? ==> r.value.l == a.l && r.value.All == a.All && |r.value.s| == |a.s|
    ensures r.Err? <==> Operands(a, b).Err?
    ensures r.Ok? ==> forall i :: 0 <= i < |a.s| ==>
      r.value.s[i] == if i < |Operands(a, b).value| then a.s[i] + Operands(a, b).value[i] else a.s[i]
  {
    Elementwise(Plus, a, b)
  }

  /** `minus(Array b)`: `s[i] -= operand`. */
  function Sub(a: Arr, b: Arr): (r: Result<Arr>)
    ensures r.Ok? ==> r.value.l == a.l && r.value.All == a.All && |r.value.s| == |a.s|
    ensures r.Err? <==> Operands(a, b).Err?
    ensures r.Ok? ==> forall i :: 0 <= i < |a.s| ==>
      r.value.s[i] == if i < |Operands(a, b).value| then a.s[i] - Operands(a, b).value[i] else a.s[i]
  {
    Elementwise(Minus, a, b)
  }

  /** `prodEach(Array b)`: `s[i] *= operand`. */
  function ProdEach(a: Arr, b: Arr): (r: Result<Arr>)
    ensures r.Ok? ==> r.value.l == a.l && r.value.All == a.All && |r.value.s| == |a.s|
    ensures r.Err? <==> Operands(a, b).Err?
    ensures r.Ok? ==> forall i :: 0 <= i < |a.s| ==>
      r.value.s[i] == if i < |Operands(a, b).value| then a.s[i] * Operands(a, b).value[i] else a.s[i]
  {
    Elementwise(Times, a, b)
  }

  /** `divEach(Array b)`: `s[i] /= operand`, a zero operand leaving a
      non-finite value. */
  function DivEach(a: Arr, b: Arr): (r: Result<Arr>)
    ensures r.Ok? ==> r.value.l == a.l && r.value.All == a.All && |r.value.s| == |a.s|
    ensures r.Err? <==> (Operands(a, b).Err? ||
      exists i :: 0 <= i < |Operands(a, b).value| && Operands(a, b).value[i] == 0.0)
    ensures r.Ok? ==> forall i :: 0 <= i < |a.s| ==>
      r.value.s[i] == if i < |Operands(a, b).value| then a.s[i] / Operands(a, b).value[i] else a.s[i]
  {
    Elementwise(Over, a, b)
  }

  // -----------------------------------------------------------------------
  // Construction

  /** `StringToIntArray`: one entry per token of `split(" ", 0)`, a token
      `Integer.parseInt` rejects becoming 1. */
  function StringToIntArray(str: string, parseInt: string -> Option<int32>): (r: seq<int32>)
    ensures |r| == |JavaText.Split(str)|
    ensures forall i :: 0 <= i < |r| ==>
      parseInt(JavaText.Split(str)[i]) == Some(r[i]) || (parseInt(JavaText.Split(str)[i]).None? && r[i] == 1)
  {
    var tokens := JavaText.Split(str);
    seq(|tokens|, i requires 0 <= i < |tokens| => parseInt(tokens[i]).GetOr(1))
  }

  /** `StringToDoubleArray`: one entry per token, a token
      `Double.parseDouble` rejects becoming 0. */
  function StringToDoubleArray(str: string, parseDouble: string -> Option<real>): (r: seq<real>)
    ensures |r| == |JavaText.Split(str)|
    ensures forall i :: 0 <= i < |r| ==>
      parseDouble(JavaText.Split(str)[i]) == Some(r[i]) || (parseDouble(JavaText.Split(str)[i]).None? && r[i] == 0.0)
  {
    var tokens := JavaText.Split(str);
    seq(|tokens|, i requires 0 <= i < |tokens| => parseDouble(tokens[i]).GetOr(0.0))
  }

  function Zeros(n: nat): (r: seq<real>)
    ensures |r| == n && forall i :: 0 <= i < n ==> r[i] == 0.0
  {
    seq(n, _ => 0.0)
  }

  /** The `try` block of `Array(String)`: dims from between `[` and `]`,
      clamped; values from between `{` and `}`; values of the wrong count
      replaced by zeros of the dims' product, a negative product throwing. */
  function ParseDescriptor(text: string, parseInt: string -> Option<int32>,
                           parseDouble: string -> Option<real>): (r: Result<Arr>)
    ensures ']' !in text || '}' !in text ==> r.Err?
    ensures r.Ok? ==> Clamped(r.value.l) && r.value.All == ProductAll(r.value.l) == |r.value.s|
  {
    var dimsText :- JavaText.Between(text, '[', ']');
    var m :- Limit(StringToIntArray(dimsText, parseInt));
    var valsText :- JavaText.Between(text, '{', '}');
    var vals := StringToDoubleArray(valsText, parseDouble);
    var p := ProductAll(m);
    if |vals| == p then Ok(Arr(m, vals, p))
    else if p < 0 then Err(NegativeArraySize)
    else Ok(Arr(m, Zeros(p), p))
  }

  /** `Array(String s)`: the parsed array, or on any throwable the fallback
      `([1], [1.0], 1)`. */
  function FromText(text: string, parseInt: string -> Option<int32>,
                    parseDouble: string -> Option<real>): (r: Arr)
    ensures r == Fallback || (Clamped(r.l) && r.All == ProductAll(r.l) == |r.s|)
    ensures r.All == |r.s| && r.All >= 0
  {
    match ParseDescriptor(text, parseInt, parseDouble)
    case Ok(a) => a
    case Err(_) => Fallback
  }

  /** `Array(int... arr)`: clamped dims and a zero storage of their product;
      fewer than three dims, or a negative product, throw. */
  function FromDims(arr: seq<int32>): (r: Result<Arr>)
    ensures r.Err? <==> |arr| < 3 || ProductAll(Limit(arr).value) < 0
    ensures r.Ok? ==> Clamped(r.value.l) && |r.value.l| == |arr| && r.value.l[3..] == arr[3..]
    ensures r.Ok? ==> r.value.All == ProductAll(r.value.l) == |r.value.s|
    ensures r.Ok? ==> forall i :: 0 <= i < |r.value.s| ==> r.value.s[i] == 0.0
  {
    var l :- Limit(arr);
    var f := ProductAll(l);
    if f < 0 then Err(NegativeArraySize) else Ok(Arr(l, Zeros(f), f))
  }

  /** `Array(double... arr)`: a row vector of shape (1, 1, n) holding the
      values verbatim; the last extent is not clamped. */
  function FromValues(vals: seq<real>): (r: Arr)
    requires |vals| <= MAX
    ensures r.s == vals && r.All == |vals| == ProductAll(r.l)
    ensures |r.l| == 3 && r.l[0] == 1 && r.l[1] == 1 && r.l[2] == |vals|
  {
    var l: seq<int32> := [1, 1, |vals|];
    assert l[..2] == [1, 1] && [1, 1][..1] == [1] && [1][..0] == [];
    assert Radix.Prod(l) == |vals|;
    Arr(l, vals, ProductAll(l))
  }

  // -----------------------------------------------------------------------
  // Vector operations on the flat storage

  /** `dotProd(Array b)` as written: sums `s[i] * b.s[i]` for `i` below
      `min(l[3], b.l[3])`, so it throws on any dims list shorter than four and
      on a bound past either storage. */
  function DotProd(a: Arr, b: Arr): (r: Result<real>)
    ensures r.Ok? <==> (|a.l| >= 4 && |b.l| >= 4
      && Min(a.l[3], b.l[3]) <= |a.s| && Min(a.l[3], b.l[3]) <= |b.s|)
    ensures r.Ok? && Min(a.l[3], b.l[3]) <= 0 ==> r.value == 0.0
    ensures r.Ok? && Min(a.l[3], b.l[3]) > 0 ==>
      r.value == VectorAlgebra.DotPrefix(a.s, b.s, Min(a.l[3], b.l[3]))
  {
    if |a.l| < 4 || |b.l| < 4 then Err(IndexOutOfBounds)
    else
      var m := Min(a.l[3], b.l[3]);
      if m > |a.s| || m > |b.s| then Err(IndexOutOfBounds)
      else if m <= 0 then Ok(0.0)
      else Ok(VectorAlgebra.DotPrefix(a.s, b.s, m))
  }

  /** `Math.min` on `int`. */
  function Min(x: int32, y: int32): int32 {
    if x < y then x else y
  }

  /** The text `crossProd` builds its result from. */
  const CROSS_SEED: string := "[3] {0 0 0}"

  /** The seed has a single dims token, so `Limit` throws on it and it
      becomes the fallback array whatever the number parsers do. */
  lemma CrossSeedFallsBack(parseInt: string -> Option<int32>, parseDouble: string -> Option<real>)
    ensures FromText(CROSS_SEED, parseInt, parseDouble) == Fallback
  {
    SeedDimsText();
    assert JavaText.SPACE !in "3";
    assert |StringToIntArray("3", parseInt)| == 1;
    assert Limit(StringToIntArray("3", parseInt)).Err?;
    assert ParseDescriptor(CROSS_SEED, parseInt, parseDouble).Err?;
  }

  /** The dims section of the seed is the single token `3`. */
  lemma SeedDimsText()
    ensures JavaText.Between(CROSS_SEED, '[', ']') == Ok("3")
  {
    assert CROSS_SEED == [] + ['['] + "3" + [']'] + " {0 0 0}";
    JavaText.BetweenSection([], '[', "3", ']', " {0 0 0}");
  }

  /** The early-return test of `crossProd`:
      `l.length != 1 && b.l.length != 1 && l[0] < 3 && b.l[0] < 3`,
      evaluated left to right with short-circuiting. */
  function CrossGuard(a: Arr, b: Arr): (r: Result<bool>)
    ensures r == Ok(true) <==> |a.l| > 1 && |b.l| > 1 && a.l[0] < 3 && b.l[0] < 3
  {
    if |a.l| == 1 || |b.l| == 1 then Ok(false)
    else if |a.l| == 0 then Err(IndexOutOfBounds)
    else if a.l[0] >= 3 then Ok(false)
    else if |b.l| == 0 then Err(IndexOutOfBounds)
    else Ok(b.l[0] < 3)
  }

  /** The value step `i` of `crossProd`'s loop computes:
      `s[(i+1)%3]*b.s[(i+2)%3] - s[(i+2)%3]*b.s[(i+1)%3]`. */
  function CrossTerm(u: seq<real>, v: seq<real>, i: nat): real
    requires i < 3
    requires (i + 1) % 3 < |u| && (i + 2) % 3 < |u| && (i + 1) % 3 < |v| && (i + 2) % 3 < |v|
  {
    u[(i + 1) % 3] * v[(i + 2) % 3] - u[(i + 2) % 3] * v[(i + 1) % 3]
  }

  /** The loop of `crossProd` from step `i` on: component `i` is computed
      from `s` and `b.s` and stored into `c.s[i]`; any index past an end throws. */
  function CrossLoop(a: Arr, b: Arr, c: Arr, i: nat): (r: Result<Arr>)
    requires i <= 3
    ensures i <= |c.s| < 3 ==> r.Err?
    decreases 3 - i
  {
    if i == 3 then Ok(c)
    else
      var j, k := (i + 1) % 3, (i + 2) % 3;
      if j >= |a.s| || k >= |a.s| || j >= |b.s| || k >= |b.s| || i >= |c.s| then Err(IndexOutOfBounds)
      else CrossLoop(a, b, c.(s := c.s[i := CrossTerm(a.s, b.s, i)]), i + 1)
  }

  /** `crossProd(Array b)` as written: when the guard holds it returns the
      array built from the seed text untouched, a fault in the guard
      propagates, and otherwise the loop writes into that array. Since the
      seed text always falls back to the one-cell array, the call succeeds
      exactly when the guard holds, and then returns that fallback. */
  function CrossProd(a: Arr, b: Arr, parseInt: string -> Option<int32>,
                     parseDouble: string -> Option<real>): (r: Result<Arr>)
    ensures r.Ok? <==> CrossGuard(a, b) == Ok(true)
    ensures r.Ok? ==> r.value == Fallback
    ensures CrossGuard(a, b) == Ok(true) ==> r == Ok(FromText(CROSS_SEED, parseInt, parseDouble))
    ensures CrossGuard(a, b).Err? ==> r == Err(CrossGuard(a, b).fault)
    ensures CrossGuard(a, b) == Ok(false) ==>
      r == CrossLoop(a, b, FromText(CROSS_SEED, parseInt, parseDouble), 0)
  {
    CrossSeedFallsBack(parseInt, parseDouble);
    var c := FromText(CROSS_SEED, parseInt, parseDouble);
    var early :- CrossGuard(a, b);
    if early then Ok(c) else CrossLoop(a, b, c, 0)
  }

  // -----------------------------------------------------------------------
  // Shuffle

  /** `temp = s[j]; s[j] = s[i]; s[i] = temp`. */
  function Swap(s: seq<real>, i: nat, j: nat): (r: seq<real>)
    requires i < |s| && j < |s|
    ensures |r| == |s| && r[i] == s[j] && r[j] == s[i]
    ensures forall k :: 0 <= k < |s| && k != i && k != j ==> r[k] == s[k]
  {
    seq(|s|, k requires 0 <= k < |s| => if k == i then s[j] else if k == j then s[i] else s[k])
  }

  predicate SwapsInRange(swaps: seq<int>, n: nat) {
    forall k :: 0 <= k < |swaps| ==> 0 <= swaps[k] < n
  }

  /** The first `k` steps of the shuffle loop, step `i` swapping cell `i`
      with cell `swaps[i]`. */
  function SwapSteps(s: seq<real>, swaps: seq<int>, k: nat): (r: seq<real>)
    requires k <= |swaps| && k <= |s| && SwapsInRange(swaps, |s|)
    ensures |r| == |s|
  {
    if k == 0 then s else Swap(SwapSteps(s, swaps, k - 1), k - 1, swaps[k - 1])
  }

  lemma SwapMultiset(s: seq<real>, i: nat, j: nat)
    requires i < |s| && j < |s|
    ensures multiset(Swap(s, i, j)) == multiset(s)
  {
    var t := s[j := s[i]];
    assert Swap(s, i, j) == t[i := s[j]];
    assert multiset(t) == multiset(s) - multiset{s[j]} + multiset{s[i]};
    assert multiset(t[i := s[j]]) == multiset(t) - multiset{t[i]} + multiset{s[j]};
  }

  /** Each step of the shuffle loop permutes the storage. */
  lemma SwapStepPermutes(s: seq<real>, swaps: seq<int>, k: nat)
    requires 0 < k <= |swaps| && k <= |s| && SwapsInRange(swaps, |s|)
    ensures multiset(SwapSteps(s, swaps, k)) == multiset(SwapSteps(s, swaps, k - 1))
  {
    SwapMultiset(SwapSteps(s, swaps, k - 1), k - 1, swaps[k - 1]);
  }

  /** Every prefix of the shuffle loop permutes the storage. */
  lemma {:induction false} SwapStepsMultiset(s: seq<real>, swaps: seq<int>, k: nat)
    requires k <= |swaps| && k <= |s| && SwapsInRange(swaps, |s|)
    ensures multiset(SwapSteps(s, swaps, k)) == multiset(s)
  {
    if k > 0 {
      SwapStepsMultiset(s, swaps, k - 1);
      SwapStepPermutes(s, swaps, k);
    }
  }

  /** `shuffle()`: for each cell `i` in turn, swap it with cell `swaps[i]`,
      the index `rand.nextInt(s.length)` drew. The storage is permuted; dims
      and count are untouched. */
  method Shuffle(a: Arr, swaps: seq<int>) returns (r: Arr)
    requires |swaps| == |a.s| && SwapsInRange(swaps, |a.s|)
    ensures r.l == a.l && r.All == a.All
    ensures multiset(r.s) == multiset(a.s)
    ensures r.s == SwapSteps(a.s, swaps, |a.s|)
  {
    var s := a.s;
    var i := 0;
    while i < |s|
      invariant |s| == |a.s| && 0 <= i <= |s|
      invariant s == SwapSteps(a.s, swaps, i)
    {
      s := Swap(s, i, swaps[i]);
      i := i + 1;
    }
    SwapStepsMultiset(a.s, swaps, |a.s|);
    r := a.(s := s);
  }

  // -----------------------------------------------------------------------
  // Single-cell writes

  /** `Change(int[] pos, double v)`: writes the cell at the row-major index of
      `pos[0..2]`. A position or dims list shorter than three, or a coordinate
      not below its extent, makes it a no-op; a negative coordinate can steer
      the index outside the storage, which throws. */
  function ChangeAt(a: Arr, pos: seq<int32>, v: real): (r: Result<Arr>)
    ensures |pos| < 3 || |a.l| < 3 ==> r == Ok(a)
    ensures (exists i :: 0 <= i < 3 && i < |pos| && i < |a.l| && pos[i] >= a.l[i]) ==> r == Ok(a)
    ensures r.Err? ==> r.fault == IndexOutOfBounds
    ensures r.Ok? ==> r.value.l == a.l && r.value.All == a.All && |r.value.s| == |a.s|
    ensures r.Ok? ==> forall k :: 0 <= k < |a.s| && r.value.s[k] != a.s[k] ==>
      r.value.s[k] == v && forall j :: 0 <= j < |a.s| && j != k ==> r.value.s[j] == a.s[j]
  {
    if |pos| < 3 || |a.l| < 3 then Ok(a)
    else
      var addr := AddressFrom(a.l, pos, 3, 0, 1).value;
      match addr
      case OutOfRange => Ok(a)
      case Index(k) => if 0 <= k < |a.s| then Ok(a.(s := a.s[k := v])) else Err(IndexOutOfBounds)
  }

  /** `Change(int pos, double v)`: writes `s[pos]` when `pos` indexes the
      storage, and is a no-op otherwise. */
  function ChangeIndex(a: Arr, pos: int32, v: real): (r: Arr)
    ensures r.l == a.l && r.All == a.All && |r.s| == |a.s|
    ensures 0 <= pos < |a.s| ==> r.s[pos] == v
    ensures forall k :: 0 <= k < |a.s| && k != pos ==> r.s[k] == a.s[k]
    ensures !(0 <= pos < |a.s|) ==> r == a
  {
    if pos >= 0 && pos < |a.s| then a.(s := a.s[pos := v]) else a
  }

  // -----------------------------------------------------------------------
  // Resize and Length

  /** The value a cell `i` of the resized storage takes:
      `getNum(NumToPos(new_size, i))` against the OLD dims and storage. */
  function ResizeCell(a: Arr, ns: seq<int32>, i: int32): Result<real>
  {
    var pos :- NumToPos(ns, i);
    GetNum(a, pos)
  }

  /** `Resize(int[] new_size, boolean Lossless)` as written: the target is
      clamped; a lossless resize only relabels the dims when the products
      agree and does nothing otherwise; a lossy one rebuilds the storage by
      cropping or zero-padding along each axis. `All` is never reassigned. */
  function Resize(a: Arr, newSize: seq<int32>, lossless: bool): (r: Result<Arr>)
    ensures |newSize| < 3 ==> r == Err(IndexOutOfBounds)
    ensures lossless ==> (r.Err? <==> |newSize| < 3)
    ensures r.Ok? ==> r.value.All == a.All
    ensures lossless && r.Ok? ==>
      if ProductAll(Limit(newSize).value) == a.All then r.value == a.(l := Limit(newSize).value)
      else r.value == a
    ensures !lossless && r.Ok? ==>
      r.value.l == Limit(newSize).value && |r.value.s| == ProductAll(r.value.l)
    ensures !lossless && |newSize| >= 3 && ProductAll(Limit(newSize).value) < 0 ==>
      r == Err(NegativeArraySize)
    ensures !lossless && |newSize| >= 3 && ProductAll(Limit(newSize).value) == 0 ==>
      r == Ok(Arr(Limit(newSize).value, [], a.All))
    ensures !lossless && |newSize| >= 3 && |newSize| > |a.l| && ProductAll(Limit(newSize).value) > 0 ==>
      r.Err?
  {
    var ns :- Limit(newSize);
    var p := ProductAll(ns);
    if p == a.All && lossless then Ok(a.(l := ns))
    else if lossless then Ok(a)
    else if p < 0 then Err(NegativeArraySize)
    else
      assert |ns| > |a.l| && p > 0 ==> ResizeCell(a, ns, 0).Err?;
      var cells :- Collect((i: int32) => ResizeCell(a, ns, i), p);
      Ok(Arr(ns, cells, a.All))
  }

  /** `Length()`: the first three extents as a new row vector; throws on a
      dims list shorter than three. */
  function Length(a: Arr): (r: Result<Arr>)
    ensures r.Err? <==> |a.l| < 3
    ensures r.Ok? ==> r.value.l == [1, 1, 3] && r.value.All == 3 && |r.value.s| == 3
    ensures r.Ok? ==> forall i :: 0 <= i < 3 ==> r.value.s[i] == a.l[i] as real
  {
    if |a.l| < 3 then Err(IndexOutOfBounds)
    else Ok(FromValues([a.l[0] as real, a.l[1] as real, a.l[2] as real]))
  }
}

=== FILE: array_fixes.dfy ===
/** Five places where `stuff.logic.Array` does not do what it evidently
    means to. For each: the behaviour as written (modelled in `ArrayEngine`)
    with an input that exhibits it, and a corrected definition with the
    intended property proved. */
module ArrayFixes {
  import opened Outcomes
  import opened JavaInt
  import Radix
  import VectorAlgebra
  import opened ArrayEngine
  import opened ArrayAddressing
  import ArrayProperties
  import DescriptorProperties

  // -----------------------------------------------------------------------
  // getNum(int): returns an extent instead of a stored value

  /** As written, `getNum(1)` on the `(2, 1, 2)` array holding `1 2 3 4`
      answers the extent 1 where cell 1 holds 2, and `getNum(3)`, a valid
      cell index, throws because the dims list has only three entries. */
  lemma GetNumAtReadsExtents()
    ensures GetNumAt(ArrayProperties.SCENARIO, 1) == Ok(1.0)
    ensures ArrayProperties.SCENARIO.s[1] == 2.0
    ensures GetNumAt(ArrayProperties.SCENARIO, 3) == Err(IndexOutOfBounds)
  {
  }

  /** `getNum(int)` reading the storage: 0 outside `[0, All)`, cell `pos`
      otherwise (an index past a stale storage throws). */
  function GetNumAtFixed(a: Arr, pos: int32): (r: Result<real>)
    ensures pos < 0 || pos >= a.All ==> r == Ok(0.0)
    ensures 0 <= pos < a.All ==> (r.Ok? <==> pos < |a.s|)
    ensures 0 <= pos < a.All && pos < |a.s| ==> r == Ok(a.s[pos])
  {
    if pos >= a.All || pos < 0 then Ok(0.0)
    else if pos < |a.s| then Ok(a.s[pos])
    else Err(IndexOutOfBounds)
  }

  /** The corrected `getNum(int)` agrees with `getNum(int[])` at the
      position the index decodes to: the two overloads read the same cell. */
  lemma GetNumAtFixedAgrees(a: Arr, n: int32)
    requires WellFormed(a) && 0 <= n < a.All
    ensures NumToPos(a.l, n).Ok?
    ensures GetNumAtFixed(a, n) == GetNum(a, NumToPos(a.l, n).value)
  {
    ArrayProperties.WellFormedAddressable(a);
    AddressingRoundTrip(a, n);
  }

  // -----------------------------------------------------------------------
  // Resize: the cached count goes stale

  /** As written, a lossy resize of a well-formed array to fewer cells keeps
      the old `All` over the shorter storage, and every later elementwise
      operation then indexes past the end of the storage. */
  lemma ResizeLeavesStaleCount(a: Arr, newSize: seq<int32>, b: Arr)
    requires WellFormed(a) && |newSize| == 3 && Radix.Prod(Limit(newSize).value) < a.All
    ensures Resize(a, newSize, false).Ok?
    ensures Resize(a, newSize, false).value.All == a.All
    ensures |Resize(a, newSize, false).value.s| < Resize(a, newSize, false).value.All
    ensures Add(Resize(a, newSize, false).value, b).Err?
  {
    ArrayProperties.WellFormedAddressable(a);
    ArrayProperties.ResizePadCrop(a, newSize);
    ArrayProperties.ElementwiseStale(Plus, Resize(a, newSize, false).value, b);
  }

  /** An instance: `(2, 1, 2)` resized to `(1, 1, 2)` keeps `All = 4` over a
      storage of 2 cells. */
  lemma ResizeStaleExample(b: Arr)
    ensures Resize(ArrayProperties.SCENARIO, [1, 1, 2], false).Ok?
    ensures Resize(ArrayProperties.SCENARIO, [1, 1, 2], false).value.All == 4
    ensures |Resize(ArrayProperties.SCENARIO, [1, 1, 2], false).value.s| == 2
    ensures Add(Resize(ArrayProperties.SCENARIO, [1, 1, 2], false).value, b).Err?
  {
    ArrayProperties.ScenarioCell(0);
    var ns: seq<int32> := [1, 1, 2];
    assert Limit(ns).value == ns;
    ArrayProperties.ProdThree(ns);
    ResizeLeavesStaleCount(ArrayProperties.SCENARIO, ns, b);
  }

  /** `Resize` that also refreshes `All` after rebuilding the storage. */
  function ResizeFixed(a: Arr, newSize: seq<int32>, lossless: bool): (r: Result<Arr>)
    ensures r.Err? <==> Resize(a, newSize, lossless).Err?
    ensures r.Ok? ==> r.value.l == Resize(a, newSize, lossless).value.l
    ensures r.Ok? ==> r.value.s == Resize(a, newSize, lossless).value.s
    ensures r.Ok? && !lossless ==> r.value.All == |r.value.s|
  {
    var r :- Resize(a, newSize, lossless);
    if lossless then Ok(r) else Ok(r.(All := ProductAll(r.l)))
  }

  /** The corrected `Resize` keeps a well-formed array well-formed, in both
      modes, and a lossy one keeps the zero-fill contents. */
  lemma ResizeFixedWellFormed(a: Arr, newSize: seq<int32>, lossless: bool)
    requires WellFormed(a) && |newSize| == 3
    ensures ResizeFixed(a, newSize, lossless).Ok?
    ensures WellFormed(ResizeFixed(a, newSize, lossless).value)
    ensures !lossless ==> ResizeFixed(a, newSize, lossless).value.s == Resize(a, newSize, false).value.s
  {
    var ns := Limit(newSize).value;
    ArrayProperties.ClampedThree(ns);
    ArrayProperties.WellFormedAddressable(a);
    ArrayProperties.ResizePadCrop(a, newSize);
  }

  // -----------------------------------------------------------------------
  // crossProd: never computes a cross product

  /** As written, `crossProd` either returns the fallback array of its seed
      descriptor or throws: the loop writes three components into a storage
      of one cell. */
  lemma CrossProdAsWritten(a: Arr, b: Arr, parseInt: string -> Option<int32>,
                           parseDouble: string -> Option<real>)
    ensures CrossProd(a, b, parseInt, parseDouble).Ok? <==> CrossGuard(a, b) == Ok(true)
    ensures CrossProd(a, b, parseInt, parseDouble).Ok? ==>
      CrossProd(a, b, parseInt, parseDouble).value == Fallback
  {
    CrossSeedFallsBack(parseInt, parseDouble);
  }

  /** `(1, 0, 0) x (0, 1, 0)` should be `(0, 0, 1)`; as written it is the
      one-cell fallback array. */
  lemma CrossProdCounterexample(parseInt: string -> Option<int32>, parseDouble: string -> Option<real>)
    ensures CrossProd(FromValues([1.0, 0.0, 0.0]), FromValues([0.0, 1.0, 0.0]), parseInt, parseDouble)
      == Ok(Fallback)
    ensures Fallback.s == [1.0]
  {
    CrossProdAsWritten(FromValues([1.0, 0.0, 0.0]), FromValues([0.0, 1.0, 0.0]), parseInt, parseDouble);
  }

  /** A three-component row vector `(1, 1, 3)`. */
  function Vector3(v: seq<real>): (r: Arr)
    requires |v| == 3
    ensures WellFormed(r) && r.s == v
  {
    var r := FromValues(v);
    ArrayProperties.ProdThree(r.l);
    r
  }

  /** `crossProd` returning a 3-vector: the source's loop run on a zero
      `(1, 1, 3)` vector when both storages have three cells, and the zero
      vector otherwise. */
  function CrossProdFixed(a: Arr, b: Arr): (r: Arr)
    ensures WellFormed(r) && r.l == [1, 1, 3]
    ensures |a.s| >= 3 && |b.s| >= 3 ==> CrossLoop(a, b, Vector3([0.0, 0.0, 0.0]), 0) == Ok(r)
    ensures |a.s| >= 3 && |b.s| >= 3 ==> r.s == VectorAlgebra.Cross3(a.s, b.s)
  {
    if |a.s| < 3 || |b.s| < 3 then Vector3([0.0, 0.0, 0.0])
    else
      var zero := Vector3([0.0, 0.0, 0.0]);
      ArrayProperties.CrossLoopComputes(a, b, zero);
      assert VectorAlgebra.Cross3(a.s, b.s) + zero.s[3..] == VectorAlgebra.Cross3(a.s, b.s);
      Vector3(VectorAlgebra.Cross3(a.s, b.s))
  }

  /** The corrected cross product is anticommutative, zero for a vector with
      itself, and orthogonal to its first operand. */
  lemma CrossProdFixedLaws(a: Arr, b: Arr)
    requires |a.s| >= 3 && |b.s| >= 3
    ensures forall i :: 0 <= i < 3 ==> CrossProdFixed(a, b).s[i] == -CrossProdFixed(b, a).s[i]
    ensures CrossProdFixed(a, a).s == [0.0, 0.0, 0.0]
    ensures VectorAlgebra.DotPrefix(a.s, CrossProdFixed(a, b).s, 3) == 0.0
  {
    VectorAlgebra.CrossAnticommutes(a.s, b.s);
    VectorAlgebra.CrossSelfZero(a.s);
    VectorAlgebra.CrossOrthogonal(a.s, b.s);
  }

  // -----------------------------------------------------------------------
  // dotProd: reads a fourth extent that three-axis arrays do not have

  /** As written, `dotProd` of any two three-axis arrays throws, since it
      reads `l[3]`; `(1, 2, 3) . (1, 2, 3)` should be 14. */
  lemma DotProdThrows(a: Arr, b: Arr)
    requires |a.l| == 3
    ensures DotProd(a, b) == Err(IndexOutOfBounds)
  {
  }

  /** `dotProd` summing over the cells both storages have. It agrees with the
      code as written wherever the fourth extents make the bound the shorter
      storage, and a vector's product with itself is never negative. */
  function DotProdFixed(a: Arr, b: Arr): (r: real)
    ensures (|a.l| >= 4 && |b.l| >= 4 &&
             Min(a.l[3], b.l[3]) as int == (if |a.s| < |b.s| then |a.s| else |b.s|))
      ==> DotProd(a, b) == Ok(r)
    ensures a.s == b.s ==> r >= 0.0
  {
    var m := if |a.s| < |b.s| then |a.s| else |b.s|;
    DotSelfNonneg(a.s, m);
    VectorAlgebra.DotPrefix(a.s, b.s, m)
  }

  /** The corrected dot product is symmetric and gives `1 + 4 + 9` on the
      example above. */
  lemma DotProdFixedLaws(a: Arr, b: Arr)
    ensures DotProdFixed(a, b) == DotProdFixed(b, a)
    ensures DotProdFixed(Vector3([1.0, 2.0, 3.0]), Vector3([1.0, 2.0, 3.0])) == 14.0
  {
    var m := if |a.s| < |b.s| then |a.s| else |b.s|;
    VectorAlgebra.DotPrefixSymmetric(a.s, b.s, m);
    VectorAlgebra.DotThree([1.0, 2.0, 3.0], [1.0, 2.0, 3.0]);
  }

  /** A vector's dot product with itself is never negative. */
  lemma {:induction false} DotSelfNonneg(u: seq<real>, n: nat)
    requires n <= |u|
    ensures VectorAlgebra.DotPrefix(u, u, n) >= 0.0
  {
    if n > 0 {
      DotSelfNonneg(u, n - 1);
    }
  }

  // -----------------------------------------------------------------------
  // The fallback array has a single extent

  /** As written, the array a failed parse leaves behind has one extent, so
      `Length()` and `getNum` of a three-axis position throw on it. */
  lemma FallbackUnusable(parseInt: string -> Option<int32>, parseDouble: string -> Option<real>)
    ensures FromText("", parseInt, parseDouble) == Fallback
    ensures Length(Fallback) == Err(IndexOutOfBounds)
    ensures GetNum(Fallback, [0, 0, 0]) == Err(IndexOutOfBounds)
  {
  }

  /** A `1 x 1 x 1` fallback holding 1. */
  const FallbackFixed: Arr := Arr([1, 1, 1], [1.0], 1)

  /** `Array(String)` with the three-axis fallback. */
  function FromTextFixed(text: string, parseInt: string -> Option<int32>,
                         parseDouble: string -> Option<real>): (r: Arr)
    ensures r == FallbackFixed || r == FromText(text, parseInt, parseDouble)
  {
    match ParseDescriptor(text, parseInt, parseDouble)
    case Ok(a) => a
    case Err(_) => FallbackFixed
  }

  /** With the corrected fallback every parsed array has three clamped
      extents and a consistent count, so `Length()` never throws on it; the
      fallback itself is well-formed and reads its single cell. */
  lemma FromTextFixedUsable(text: string, parseInt: string -> Option<int32>,
                            parseDouble: string -> Option<real>)
    ensures Clamped(FromTextFixed(text, parseInt, parseDouble).l)
    ensures FromTextFixed(text, parseInt, parseDouble).All == |FromTextFixed(text, parseInt, parseDouble).s|
    ensures Length(FromTextFixed(text, parseInt, parseDouble)).Ok?
    ensures WellFormed(FallbackFixed) && GetNum(FallbackFixed, [0, 0, 0]) == Ok(1.0)
  {
    FallbackFixedReads();
  }

  /** The corrected fallback is well-formed and reads 1 at `(0, 0, 0)`. */
  lemma FallbackFixedReads()
    ensures WellFormed(FallbackFixed) && GetNum(FallbackFixed, [0, 0, 0]) == Ok(1.0)
  {
    var l := FallbackFixed.l;
    ArrayProperties.ProdThree(l);
    ArrayProperties.WellFormedAddressable(FallbackFixed);
    assert Radix.InBounds(l, [0, 0, 0]);
    ArrayProperties.FlatRow(l, 0);
    GetNumInBounds(FallbackFixed, [0, 0, 0]);
  }
}

=== FILE: array_properties.dfy ===
/** Properties of the engine on three-axis arrays, stated against an
    independent zero-fill reading `Read`: a position inside the extents
    reads its row-major cell, any other non-negative position reads 0. */
module ArrayProperties {
  import opened Outcomes
  import opened JavaInt
  import Radix
  import VectorAlgebra
  import opened ArrayEngine
  import opened ArrayAddressing

  // -----------------------------------------------------------------------
  // The zero-fill reference

  /** The arrays the zero-fill reading applies to: three positive extents
      whose product fits in an `int`, and a storage of exactly that many
      cells. The cached count `All` is left free, so an array a lossy
      `Resize` left with a stale count, and a row vector of more than 16
      values, are included. */
  predicate Shaped(a: Arr) {
    |a.l| == 3 && Addressable(a.l) && |a.s| == Radix.Prod(a.l)
  }

  /** The value an array holds at a three-axis position: its row-major cell
      when every coordinate lies within its extent, and 0 otherwise. */
  function Read(a: Arr, p: seq<int>): real
    requires Shaped(a) && |p| == 3
  {
    if Radix.InBounds(a.l, p) then
      Radix.FlatBound(a.l, p);
      a.s[Radix.Flat(a.l, p)]
    else 0.0
  }

  lemma ProdThree(l: seq<int>)
    requires |l| == 3
    ensures Radix.Prod(l) == l[0] * l[1] * l[2]
  {
    assert l[..2][..1] == [l[0]] && [l[0]][..0] == [];
    assert Radix.Prod([l[0]]) == l[0];
    assert Radix.Prod(l[..2]) == l[0] * l[1];
  }

  lemma MulBounded(x: int, y: int, xMax: int, yMax: int)
    requires 0 <= x <= xMax && 0 <= y <= yMax
    ensures 0 <= x * y <= xMax * yMax
  {
    Radix.MulNonneg(x, y);
    Radix.MulNonneg(xMax - x, y);
    Radix.MulNonneg(xMax, yMax - y);
  }

  /** Three clamped extents hold at most 16^3 = 4096 cells, so their
      product is computed without any 32-bit wrap-around. */
  lemma ClampedThree(l: seq<int32>)
    requires |l| == 3 && Clamped(l)
    ensures Addressable(l) && 1 <= Radix.Prod(l) <= 4096 && ProductAll(l) == Radix.Prod(l)
  {
    ProdThree(l);
    MulBounded(l[0], l[1], 16, 16);
    MulBounded(l[0] * l[1], l[2], 256, 16);
    Radix.ProdPositive(l);
  }

  /** A well-formed array is shaped, and is addressed without any 32-bit
      wrap-around. */
  lemma WellFormedAddressable(a: Arr)
    requires WellFormed(a)
    ensures Shaped(a) && Addressable(a.l) && 1 <= Radix.Prod(a.l) <= 4096
  {
    ClampedThree(a.l);
  }

  /** `getNum(int[])` on a shaped array is the zero-fill reading for every
      non-negative three-axis position. */
  lemma GetNumZeroFill(a: Arr, p: seq<int32>)
    requires Shaped(a) && |p| == 3 && forall i :: 0 <= i < 3 ==> p[i] >= 0
    ensures GetNum(a, p) == Ok(Read(a, p))
  {
    if Radix.InBounds(a.l, p) {
      GetNumInBounds(a, p);
    }
  }

  // -----------------------------------------------------------------------
  // Elementwise operations

  /** The operand cell `i` of `a` meets: `b` read at the position index `i`
      has under `a`'s extents. */
  function Operand(a: Arr, b: Arr, i: nat): real
    requires Shaped(a) && Shaped(b) && i < |a.s|
  {
    Read(b, Radix.Coords(a.l, i))
  }

  lemma OperandFound(a: Arr, b: Arr, i: int32)
    requires Shaped(a) && Shaped(b) && 0 <= i < |a.s|
    ensures OperandAt(a, b, i) == Ok(Operand(a, b, i))
  {
    NumToPosDecodes(a.l, i);
    Radix.CoordsInBounds(a.l, i);
    GetNumZeroFill(b, NumToPos(a.l, i).value);
  }

  /** On shaped arrays, with a count that does not pass the receiver's
      storage, every operand of the loop is found, and is the zero-fill
      reading. */
  lemma OperandsFound(a: Arr, b: Arr)
    requires Shaped(a) && Shaped(b) && a.All <= |a.s|
    ensures Operands(a, b).Ok?
    ensures forall i :: 0 <= i < a.All ==> Operands(a, b).value[i] == Operand(a, b, i)
  {
    forall i: int32 | 0 <= i < a.All
      ensures OperandAt(a, b, i) == Ok(Operand(a, b, i))
    {
      OperandFound(a, b, i);
    }
  }

  /** `add`, `minus`, `prodEach` and `divEach` on shaped arrays combine
      the cells below the count with the zero-fill reading of the operand at
      the same position, so operands of another shape are cropped or padded
      with 0, and keep the cells from the count on. Only `divEach` can fail,
      exactly when some operand is 0. A count past the storage throws
      instead (`ElementwiseStale`). */
  lemma ElementwiseZeroFill(op: BinOp, a: Arr, b: Arr)
    requires Shaped(a) && Shaped(b) && a.All <= |a.s|
    ensures Elementwise(op, a, b).Ok? <==>
      (op != Over || forall i :: 0 <= i < a.All ==> Operand(a, b, i) != 0.0)
    ensures Elementwise(op, a, b).Ok? ==> Shaped(Elementwise(op, a, b).value)
    ensures Elementwise(op, a, b).Ok? && WellFormed(a) ==> WellFormed(Elementwise(op, a, b).value)
    ensures Elementwise(op, a, b).Ok? ==> forall i :: 0 <= i < |a.s| ==>
      Elementwise(op, a, b).value.s[i] ==
        if i < a.All then Combine(op, a.s[i], Operand(a, b, i)) else a.s[i]
  {
    OperandsFound(a, b);
  }

  /** With equal shapes the operand of cell `i` is the other array's cell `i`. */
  lemma OperandSameShape(a: Arr, b: Arr, i: nat)
    requires Shaped(a) && Shaped(b) && a.l == b.l && i < |a.s|
    ensures Operand(a, b, i) == b.s[i]
  {
    Radix.CoordsInBounds(a.l, i);
    Radix.FlatCoords(a.l, i);
    Radix.DivModUnique(i, Radix.Prod(a.l), 0, i);
  }

  /** Subtracting what was added restores the array. */
  lemma AddSubInverse(a: Arr, b: Arr)
    requires Shaped(a) && Shaped(b) && a.l == b.l && a.All <= |a.s|
    ensures Add(a, b).Ok? && Sub(Add(a, b).value, b) == Ok(a)
  {
    ElementwiseZeroFill(Plus, a, b);
    var c := Elementwise(Plus, a, b).value;
    ElementwiseZeroFill(Minus, c, b);
    var d := Elementwise(Minus, c, b).value;
    forall i | 0 <= i < |a.s|
      ensures d.s[i] == a.s[i]
    {
      if i < a.All {
        OperandSameShape(a, b, i);
        OperandSameShape(c, b, i);
        AddSubCell(a.s[i], b.s[i], c.s[i], d.s[i]);
      }
    }
    assert d.s == a.s;
  }

  /** One cell of `AddSubInverse`: adding an operand and taking it away again. */
  lemma AddSubCell(x: real, y: real, sum: real, diff: real)
    requires sum == Combine(Plus, x, y) && diff == Combine(Minus, sum, y)
    ensures diff == x
  {
  }

  /** `add` commutes on arrays of the same shape whose counts cover their
      storages. */
  lemma AddCommutes(a: Arr, b: Arr)
    requires Shaped(a) && Shaped(b) && a.l == b.l && a.All == b.All == |a.s|
    ensures Add(a, b).Ok? && Add(b, a).Ok?
    ensures Add(a, b).value.s == Add(b, a).value.s
  {
    ElementwiseZeroFill(Plus, a, b);
    ElementwiseZeroFill(Plus, b, a);
    forall i | 0 <= i < |a.s|
      ensures Add(a, b).value.s[i] == Add(b, a).value.s[i]
    {
      OperandSameShape(a, b, i);
      OperandSameShape(b, a, i);
    }
  }

  /** A cached count larger than the storage makes every elementwise
      operation throw: the loop indexes `s` past its end. */
  lemma ElementwiseStale(op: BinOp, a: Arr, b: Arr)
    requires a.All > |a.s|
    ensures Elementwise(op, a, b).Err?
  {
    var i: int32 := |a.s|;
    assert OperandAt(a, b, i).Err?;
  }

  // -----------------------------------------------------------------------
  // Scalar operations and reductions

  /** Dividing by the factor just multiplied in restores the array. */
  lemma ProdDivInverse(a: Arr, b: real)
    requires b != 0.0
    ensures Div(Prod(a, b), b) == Ok(a)
  {
    var c := Prod(a, b);
    if |a.s| > 0 {
      forall i | 0 <= i < |a.s|
        ensures Div(c, b).value.s[i] == a.s[i]
      {
        assert c.s[i] == a.s[i] * b;
      }
      assert Div(c, b).value.s == a.s;
    }
  }

  lemma {:induction false} SumScaled(s: seq<real>, t: seq<real>, b: real)
    requires |t| == |s| && forall i :: 0 <= i < |s| ==> t[i] == s[i] * b
    ensures Sum(t) == Sum(s) * b
  {
    if |s| > 0 {
      SumScaled(s[..|s| - 1], t[..|t| - 1], b);
    }
  }

  lemma {:induction false} SumPointwise(s: seq<real>, u: seq<real>, t: seq<real>)
    requires |t| == |s| == |u| && forall i :: 0 <= i < |s| ==> t[i] == s[i] + u[i]
    ensures Sum(t) == Sum(s) + Sum(u)
  {
    if |s| > 0 {
      SumPointwise(s[..|s| - 1], u[..|u| - 1], t[..|t| - 1]);
    }
  }

  /** `sumAll` after `prod(b)` is `b` times the old total. */
  lemma SumAllProd(a: Arr, b: real)
    ensures SumAll(Prod(a, b)) == SumAll(a) * b
  {
    SumScaled(a.s, Prod(a, b).s, b);
  }

  /** `sumAll` is additive over `add` on arrays of the same shape, when the
      receiver's count covers its storage. */
  lemma SumAllAdd(a: Arr, b: Arr)
    requires Shaped(a) && Shaped(b) && a.l == b.l && a.All == |a.s|
    ensures Add(a, b).Ok? && SumAll(Add(a, b).value) == SumAll(a) + SumAll(b)
  {
    ElementwiseZeroFill(Plus, a, b);
    var c := Add(a, b).value;
    forall i | 0 <= i < |a.s|
      ensures c.s[i] == a.s[i] + b.s[i]
    {
      OperandSameShape(a, b, i);
    }
    SumPointwise(a.s, b.s, c.s);
  }

  /** Overwriting one cell changes the total by the difference. */
  lemma {:induction false} SumUpdate(s: seq<real>, i: nat, v: real)
    requires i < |s|
    ensures Sum(s[i := v]) == Sum(s) - s[i] + v
  {
    var t := s[i := v];
    if i < |s| - 1 {
      SumUpdate(s[..|s| - 1], i, v);
      assert t[..|t| - 1] == s[..|s| - 1][i := v];
    } else {
      assert t[..|t| - 1] == s[..|s| - 1];
    }
  }

  /** One swap keeps the total. */
  lemma SwapSum(t: seq<real>, i: nat, j: nat)
    requires i < |t| && j < |t|
    ensures Sum(Swap(t, i, j)) == Sum(t)
  {
    var u := t[j := t[i]];
    SumUpdate(t, j, t[i]);
    SumUpdate(u, i, t[j]);
    assert u[i] == t[i];
    assert Swap(t, i, j) == u[i := t[j]];
  }

  /** Every prefix of the shuffle loop keeps the total. */
  lemma {:induction false} SwapStepsSum(s: seq<real>, swaps: seq<int>, k: nat)
    requires k <= |swaps| && k <= |s| && SwapsInRange(swaps, |s|)
    ensures Sum(SwapSteps(s, swaps, k)) == Sum(s)
  {
    if k > 0 {
      var t := SwapSteps(s, swaps, k - 1);
      SwapStepsSum(s, swaps, k - 1);
      SwapSum(t, k - 1, swaps[k - 1]);
      assert SwapSteps(s, swaps, k) == Swap(t, k - 1, swaps[k - 1]);
    }
  }

  /** `shuffle` leaves `sumAll` unchanged. */
  lemma ShuffleKeepsSum(a: Arr, swaps: seq<int>)
    requires |swaps| == |a.s| && SwapsInRange(swaps, |a.s|)
    ensures Sum(SwapSteps(a.s, swaps, |a.s|)) == SumAll(a)
  {
    SwapStepsSum(a.s, swaps, |a.s|);
  }

  // -----------------------------------------------------------------------
  // Single-cell writes

  /** `Change(int[], v)` at an in-range position writes that position's cell
      and keeps the array shaped (and well-formed, if it was); `getNum` then
      reads `v` back. */
  lemma ChangeThenGet(a: Arr, p: seq<int32>, v: real)
    requires Shaped(a) && Radix.InBounds(a.l, p)
    ensures ChangeAt(a, p, v).Ok? && Shaped(ChangeAt(a, p, v).value)
    ensures WellFormed(a) ==> WellFormed(ChangeAt(a, p, v).value)
    ensures GetNum(ChangeAt(a, p, v).value, p) == Ok(v)
  {
    AddressInBounds(a.l, p);
    Radix.FlatBound(a.l, p);
    var c := ChangeAt(a, p, v).value;
    assert c == a.(s := a.s[Radix.Flat(a.l, p) := v]);
    GetNumInBounds(c, p);
  }

  /** Distinct in-range positions have distinct row-major indices. */
  lemma FlatInjective(l: seq<int32>, p: seq<int32>, q: seq<int32>)
    requires Radix.Positive(l) && Radix.InBounds(l, p) && Radix.InBounds(l, q) && q != p
    ensures Radix.Flat(l, p) != Radix.Flat(l, q)
  {
    Radix.CoordsFlat(l, p);
    Radix.CoordsFlat(l, q);
  }

  /** ... and every other in-range position reads what it read before. */
  lemma ChangeKeepsOthers(a: Arr, p: seq<int32>, q: seq<int32>, v: real)
    requires Shaped(a) && Radix.InBounds(a.l, p) && Radix.InBounds(a.l, q) && q != p
    ensures ChangeAt(a, p, v).Ok?
    ensures GetNum(ChangeAt(a, p, v).value, q) == GetNum(a, q)
  {
    AddressInBounds(a.l, p);
    Radix.FlatBound(a.l, p);
    var k := Radix.Flat(a.l, p);
    var c := a.(s := a.s[k := v]);
    assert ChangeAt(a, p, v) == Ok(c);
    FlatInjective(a.l, p, q);
    GetNumInBounds(c, q);
    GetNumInBounds(a, q);
  }

  /** The two `Change` overloads agree: writing at a position is writing at
      its row-major index. */
  lemma ChangeOverloadsAgree(a: Arr, p: seq<int32>, v: real)
    requires Shaped(a) && Radix.InBounds(a.l, p)
    ensures 0 <= Radix.Flat(a.l, p) <= MAX
    ensures ChangeAt(a, p, v) == Ok(ChangeIndex(a, Radix.Flat(a.l, p) as int32, v))
  {
    AddressInBounds(a.l, p);
    Radix.FlatBound(a.l, p);
  }

  // -----------------------------------------------------------------------
  // Resize

  /** The cell `i` of a lossy resize to clamped extents `ns` is the old
      array's zero-fill reading at the position `i` has under `ns`. */
  lemma ResizeCellRead(a: Arr, ns: seq<int32>, i: int32)
    requires Shaped(a) && |ns| == 3 && Clamped(ns) && 0 <= i < Radix.Prod(ns)
    ensures ResizeCell(a, ns, i) == Ok(Read(a, Radix.Coords(ns, i)))
  {
    ClampedThree(ns);
    NumToPosDecodes(ns, i);
    Radix.CoordsInBounds(ns, i);
    GetNumZeroFill(a, NumToPos(ns, i).value);
  }

  /** A lossy `Resize` of a shaped array to three extents crops or pads
      with zeros along every axis: cell `i` of the new storage is the old
      array's zero-fill reading at the position `i` has under the new
      (clamped) extents. The cached count is left as it was, and the result
      is shaped again, so the lemma applies to a second resize as well. */
  lemma ResizePadCrop(a: Arr, newSize: seq<int32>)
    requires Shaped(a) && |newSize| == 3
    ensures Resize(a, newSize, false).Ok?
    ensures Resize(a, newSize, false).value.l == Limit(newSize).value
    ensures Resize(a, newSize, false).value.All == a.All
    ensures |Resize(a, newSize, false).value.s| == Radix.Prod(Limit(newSize).value)
    ensures Radix.Positive(Limit(newSize).value)
    ensures Shaped(Resize(a, newSize, false).value)
    ensures forall i :: 0 <= i < |Resize(a, newSize, false).value.s| ==>
      Resize(a, newSize, false).value.s[i] == Read(a, Radix.Coords(Limit(newSize).value, i))
  {
    var ns := Limit(newSize).value;
    ClampedThree(ns);
    forall i: int32 | 0 <= i < ProductAll(ns)
      ensures ResizeCell(a, ns, i) == Ok(Read(a, Radix.Coords(ns, i)))
    {
      ResizeCellRead(a, ns, i);
    }
  }

  /** In position terms: every position inside the new extents holds the
      old zero-fill reading at that same position. */
  lemma ResizeAtPosition(a: Arr, newSize: seq<int32>, p: seq<int32>)
    requires Shaped(a) && |newSize| == 3 && Radix.InBounds(Limit(newSize).value, p)
    ensures Resize(a, newSize, false).Ok?
    ensures 0 <= Radix.Flat(Limit(newSize).value, p) < |Resize(a, newSize, false).value.s|
    ensures Resize(a, newSize, false).value.s[Radix.Flat(Limit(newSize).value, p)] == Read(a, p)
  {
    var ns := Limit(newSize).value;
    ResizePadCrop(a, newSize);
    Radix.FlatBound(ns, p);
    Radix.CoordsFlat(ns, p);
  }

  /** Resizing twice, the second time from the array with the stale count
      the first resize left behind: a position inside the final extents
      holds the original zero-fill reading there when it also lies inside
      the intermediate extents, and 0 when the first resize cropped it. */
  lemma ResizeTwice(a: Arr, m: seq<int32>, n: seq<int32>, p: seq<int32>)
    requires Shaped(a) && |m| == 3 && |n| == 3 && Radix.InBounds(Limit(n).value, p)
    ensures Resize(a, m, false).Ok? && Resize(Resize(a, m, false).value, n, false).Ok?
    ensures 0 <= Radix.Flat(Limit(n).value, p) < |Resize(Resize(a, m, false).value, n, false).value.s|
    ensures Resize(Resize(a, m, false).value, n, false).value.s[Radix.Flat(Limit(n).value, p)]
      == if Radix.InBounds(Limit(m).value, p) then Read(a, p) else 0.0
  {
    ResizePadCrop(a, m);
    var b := Resize(a, m, false).value;
    ResizeAtPosition(b, n, p);
    if Radix.InBounds(Limit(m).value, p) {
      ResizeAtPosition(a, m, p);
    }
  }

  /** A lossless `Resize` to extents with the same product relabels the
      dims and keeps the storage and well-formedness; resizing losslessly
      back to the old dims restores the array. */
  lemma ResizeLosslessRoundTrip(a: Arr, newSize: seq<int32>)
    requires WellFormed(a) && |newSize| == 3 && Radix.Prod(Limit(newSize).value) == a.All
    ensures Resize(a, newSize, true) == Ok(a.(l := Limit(newSize).value))
    ensures WellFormed(Resize(a, newSize, true).value)
    ensures Resize(Resize(a, newSize, true).value, a.l, true) == Ok(a)
  {
    ClampedThree(Limit(newSize).value);
    ClampedThree(a.l);
    assert Limit(a.l).value == a.l;
  }

  const SCENARIO: Arr := Arr([2, 1, 2], [1.0, 2.0, 3.0, 4.0], 4)

  lemma ScenarioCell(i: int)
    requires 0 <= i < 4
    ensures WellFormed(SCENARIO) && Shaped(SCENARIO)
    ensures Read(SCENARIO, [0, 0, i]) == [1.0, 2.0, 0.0, 0.0][i]
  {
    ProdThree(SCENARIO.l);
    if i < 2 {
      assert Radix.InBounds(SCENARIO.l, [0, 0, i]);
      FlatRow(SCENARIO.l, i);
    } else {
      assert !Radix.InBounds(SCENARIO.l, [0, 0, i]);
    }
  }

  /** Resizing `(2, 1, 2)` holding `1 2 3 4` to `(1, 1, 4)` keeps the first
      row `1 2` and pads with zeros: `1 2 0 0`. */
  lemma ResizeScenario()
    ensures Resize(SCENARIO, [1, 1, 4], false) == Ok(Arr([1, 1, 4], [1.0, 2.0, 0.0, 0.0], 4))
  {
    var ns: seq<int32> := [1, 1, 4];
    var vals := [1.0, 2.0, 0.0, 0.0];
    ScenarioCell(0);
    ProdThree(ns);
    forall i | 0 <= i < 4
      ensures Read(SCENARIO, Radix.Coords(ns, i)) == vals[i]
    {
      CoordsRow(i);
      ScenarioCell(i);
    }
    ResizeInto(SCENARIO, ns, vals);
  }

  /** A lossy resize to three clamped extents whose new cells are all known
      yields exactly those cells. */
  lemma ResizeInto(a: Arr, ns: seq<int32>, vals: seq<real>)
    requires Shaped(a) && |ns| == 3 && Clamped(ns) && |vals| == Radix.Prod(ns)
    requires forall i :: 0 <= i < |vals| ==> Read(a, Radix.Coords(ns, i)) == vals[i]
    ensures Resize(a, ns, false) == Ok(Arr(ns, vals, a.All))
  {
    assert Limit(ns).value == ns;
    ResizePadCrop(a, ns);
    assert Resize(a, ns, false).value.s == vals;
  }

  lemma CoordsRow(i: nat)
    requires i < 4
    ensures Radix.Coords([1, 1, 4], i) == [0, 0, i]
  {
    var l := [1, 1, 4];
    assert l[..2] == [1, 1] && [1, 1][..1] == [1] && [1][..0] == [];
  }

  lemma FlatRow(l: seq<int>, i: int)
    requires |l| == 3
    ensures Radix.Flat(l, [0, 0, i]) == i
  {
    var p := [0, 0, i];
    assert p[..2] == [0, 0] && [0, 0][..1] == [0] && [0][..0] == [];
    assert l[..2][..1] == [l[0]] && [l[0]][..0] == [];
    assert Radix.Flat([l[0]], [0]) == 0;
    assert Radix.Flat(l[..2], [0, 0]) == 0;
  }

  // -----------------------------------------------------------------------
  // Dims helpers and constructors

  /** `Limit` leaves a list that is already clamped alone, so clamping twice
      is clamping once. */
  lemma LimitIdempotent(l: seq<int32>)
    requires |l| >= 3
    ensures Limit(Limit(l).value) == Limit(l)
  {
    var m := Limit(l).value;
    assert Limit(m).value == m;
  }

  /** `Array(int...)` with three extents builds a well-formed all-zero array
      whose `getNum` reads 0 everywhere. */
  lemma FromDimsThree(arr: seq<int32>, p: seq<int32>)
    requires |arr| == 3 && |p| == 3 && forall i :: 0 <= i < 3 ==> p[i] >= 0
    ensures FromDims(arr).Ok? && WellFormed(FromDims(arr).value)
    ensures GetNum(FromDims(arr).value, p) == Ok(0.0)
  {
    var l := Limit(arr).value;
    ClampedThree(l);
    GetNumZeroFill(FromDims(arr).value, p);
  }

  /** `Length()` of `Array(int...)` reports the clamped extents. */
  lemma LengthOfFromDims(arr: seq<int32>)
    requires |arr| == 3
    ensures FromDims(arr).Ok? && Length(FromDims(arr).value).Ok?
    ensures forall i :: 0 <= i < 3 ==>
      Length(FromDims(arr).value).value.s[i] == Limit(arr).value[i] as real
  {
    ClampedThree(Limit(arr).value);
  }

  /** `Array(double...)` stores the values along the last axis: `getNum`
      at `(0, 0, i)` reads value `i`. */
  lemma FromValuesReads(vals: seq<real>, i: int32)
    requires 1 <= |vals| <= MAX && 0 <= i < |vals|
    ensures GetNum(FromValues(vals), [0, 0, i]) == Ok(vals[i])
  {
    var a := FromValues(vals);
    ProdThree(a.l);
    assert Addressable(a.l);
    var p: seq<int32> := [0, 0, i];
    FlatRow(a.l, i);
    GetNumInBounds(a, p);
  }

  /** `Array(double...)` of at least one value is shaped; it is well-formed
      exactly when it holds at most 16 values, since its last extent is not
      clamped. */
  lemma FromValuesShaped(vals: seq<real>)
    requires 1 <= |vals| <= MAX
    ensures Shaped(FromValues(vals))
    ensures WellFormed(FromValues(vals)) <==> |vals| <= LENGTH_LIMIT
  {
    ProdThree(FromValues(vals).l);
  }

  // -----------------------------------------------------------------------
  // Products

  /** One step of the loop of `crossProd` writes its value into cell `i`. */
  lemma CrossStep(a: Arr, b: Arr, c: Arr, i: nat, x: real)
    requires |a.s| >= 3 && |b.s| >= 3 && |c.s| >= 3 && i < 3 && CrossTerm(a.s, b.s, i) == x
    ensures CrossLoop(a, b, c, i) == CrossLoop(a, b, c.(s := c.s[i := x]), i + 1)
  {
  }

  /** The three steps of the loop of `crossProd` write their values into
      cells 0..2 and keep the rest of the result. */
  lemma CrossLoopWrites(a: Arr, b: Arr, c: Arr, x: seq<real>)
    requires |a.s| >= 3 && |b.s| >= 3 && |c.s| >= 3 && |x| == 3
    requires forall i :: 0 <= i < 3 ==> CrossTerm(a.s, b.s, i) == x[i]
    ensures CrossLoop(a, b, c, 0) == Ok(c.(s := x + c.s[3..]))
  {
    var c1 := c.(s := c.s[0 := x[0]]);
    var c2 := c1.(s := c1.s[1 := x[1]]);
    var c3 := c2.(s := c2.s[2 := x[2]]);
    CrossStep(a, b, c, 0, x[0]);
    CrossStep(a, b, c1, 1, x[1]);
    CrossStep(a, b, c2, 2, x[2]);
    assert CrossLoop(a, b, c, 0) == Ok(c3);
    ThreeWrites(c.s, x);
  }

  /** Writing cells 0, 1 and 2 of a storage replaces its first three cells. */
  lemma ThreeWrites(s: seq<real>, x: seq<real>)
    requires |s| >= 3 && |x| == 3
    ensures s[0 := x[0]][1 := x[1]][2 := x[2]] == x + s[3..]
  {
  }

  /** The loop of `crossProd`, run over operands of at least three cells
      into a result storage of at least three cells, writes the cross
      product of the operands' first three cells into cells 0..2 and keeps
      the rest of the result. */
  lemma CrossLoopComputes(a: Arr, b: Arr, c: Arr)
    requires |a.s| >= 3 && |b.s| >= 3 && |c.s| >= 3
    ensures CrossLoop(a, b, c, 0) == Ok(c.(s := VectorAlgebra.Cross3(a.s, b.s) + c.s[3..]))
  {
    var x := VectorAlgebra.Cross3(a.s, b.s);
    forall i | 0 <= i < 3
      ensures CrossTerm(a.s, b.s, i) == x[i]
    {
      CrossTermIsCross3(a.s, b.s, i);
    }
    CrossLoopWrites(a, b, c, x);
  }

  /** The value step `i` of the loop computes is component `i` of the
      cross product. */
  lemma CrossTermIsCross3(u: seq<real>, v: seq<real>, i: nat)
    requires |u| >= 3 && |v| >= 3 && i < 3
    ensures CrossTerm(u, v, i) == VectorAlgebra.Cross3(u, v)[i]
  {
    var y: real := VectorAlgebra.Cross3(u, v)[i];
    VectorAlgebra.LoopFormulaIsCross3(u, v, i);
    assert CrossTerm(u, v, i) == y;
  }

  /** `dotProd` as written does not depend on the order of its operands. */
  lemma DotProdSymmetric(a: Arr, b: Arr)
    ensures DotProd(a, b) == DotProd(b, a)
  {
    if |a.l| >= 4 && |b.l| >= 4 {
      var m := Min(a.l[3], b.l[3]);
      assert m == Min(b.l[3], a.l[3]);
      if 0 < m <= |a.s| && m <= |b.s| {
        VectorAlgebra.DotPrefixSymmetric(a.s, b.s, m);
      }
    }
  }
}

=== FILE: descriptor_properties.dfy ===
/** What `Array(String)` makes of a descriptor `"[d0 d1 d2] {v0 v1 ...}"`
    built from well-behaved tokens, and when it falls back. */
module DescriptorProperties {
  import opened Outcomes
  import opened JavaInt
  import Radix
  import opened JavaText
  import opened ArrayEngine
  import ArrayProperties

  /** A token the descriptor syntax cannot confuse: non-empty, and free of
      the space and of the four brackets. */
  predicate Token(t: string) {
    t != "" && SPACE !in t && '[' !in t && ']' !in t && '{' !in t && '}' !in t
  }

  predicate Tokens(ts: seq<string>) {
    forall k :: 0 <= k < |ts| ==> Token(ts[k])
  }

  /** `"[" + dims + "] {" + values + "}"`, tokens separated by single spaces. */
  function Descriptor(dims: seq<string>, vals: seq<string>): string {
    "[" + Join(dims) + "] {" + Join(vals) + "}"
  }

  /** Each token parsed on its own, a rejected one becoming `otherwise`. */
  function ParseEach<T>(ts: seq<string>, parse: string -> Option<T>, otherwise: T): (r: seq<T>)
    ensures |r| == |ts|
  {
    seq(|ts|, i requires 0 <= i < |ts| => parse(ts[i]).GetOr(otherwise))
  }

  predicate Unbracketed(t: string) {
    '[' !in t && ']' !in t && '{' !in t && '}' !in t
  }

  lemma JoinUnbracketed(ts: seq<string>)
    requires Tokens(ts)
    ensures Unbracketed(Join(ts))
  {
    JoinAvoids(ts, '[');
    JoinAvoids(ts, ']');
    JoinAvoids(ts, '{');
    JoinAvoids(ts, '}');
  }

  lemma DimsSection(d: string, v: string)
    requires Unbracketed(d) && Unbracketed(v)
    ensures Between("[" + d + "] {" + v + "}", '[', ']') == Ok(d)
  {
    assert "[" + d + "] {" + v + "}" == [] + ['['] + d + [']'] + (" {" + v + "}");
    BetweenSection([], '[', d, ']', " {" + v + "}");
  }

  lemma ValuesSection(d: string, v: string)
    requires Unbracketed(d) && Unbracketed(v)
    ensures Between("[" + d + "] {" + v + "}", '{', '}') == Ok(v)
  {
    var pre := "[" + d + "] ";
    assert '{' !in pre && '}' !in pre;
    assert "[" + d + "] {" + v + "}" == pre + ['{'] + v + ['}'] + [];
    BetweenSection(pre, '{', v, '}', []);
  }

  /** The two bracketed sections of a descriptor are found where they were put. */
  lemma DescriptorSections(dims: seq<string>, vals: seq<string>)
    requires Tokens(dims) && Tokens(vals)
    ensures Between(Descriptor(dims, vals), '[', ']') == Ok(Join(dims))
    ensures Between(Descriptor(dims, vals), '{', '}') == Ok(Join(vals))
  {
    JoinUnbracketed(dims);
    JoinUnbracketed(vals);
    DimsSection(Join(dims), Join(vals));
    ValuesSection(Join(dims), Join(vals));
  }

  /** The dims and values a descriptor of tokens yields. */
  lemma DescriptorTokens(dims: seq<string>, vals: seq<string>,
                         parseInt: string -> Option<int32>, parseDouble: string -> Option<real>)
    requires Tokens(dims) && Tokens(vals) && |dims| >= 1 && |vals| >= 1
    ensures StringToIntArray(Join(dims), parseInt) == ParseEach(dims, parseInt, 1)
    ensures StringToDoubleArray(Join(vals), parseDouble) == ParseEach(vals, parseDouble, 0.0)
  {
    SplitJoin(dims);
    SplitJoin(vals);
  }

  /** `Array(String)` on a descriptor with three dims tokens: the extents are
      the parsed dims clamped into [1, 16]; the storage holds the parsed
      values when there are exactly as many as cells, and zeros otherwise.
      The result is well-formed. */
  lemma FromTextDescriptor(dims: seq<string>, vals: seq<string>,
                           parseInt: string -> Option<int32>, parseDouble: string -> Option<real>)
    requires Tokens(dims) && Tokens(vals) && |dims| == 3 && |vals| >= 1
    ensures FromText(Descriptor(dims, vals), parseInt, parseDouble).l
      == Limit(ParseEach(dims, parseInt, 1)).value
    ensures WellFormed(FromText(Descriptor(dims, vals), parseInt, parseDouble))
    ensures FromText(Descriptor(dims, vals), parseInt, parseDouble).s ==
      var cells := Radix.Prod(Limit(ParseEach(dims, parseInt, 1)).value);
      if |vals| == cells then ParseEach(vals, parseDouble, 0.0) else Zeros(cells)
  {
    DescriptorSections(dims, vals);
    DescriptorTokens(dims, vals, parseInt, parseDouble);
    ArrayProperties.ClampedThree(Limit(ParseEach(dims, parseInt, 1)).value);
  }

  /** With fewer than three dims tokens `Limit` throws and the fallback array
      is what remains. */
  lemma FromTextFewDims(dims: seq<string>, vals: seq<string>,
                        parseInt: string -> Option<int32>, parseDouble: string -> Option<real>)
    requires Tokens(dims) && Tokens(vals) && 1 <= |dims| < 3
    ensures FromText(Descriptor(dims, vals), parseInt, parseDouble) == Fallback
  {
    DescriptorSections(dims, vals);
    SplitJoin(dims);
  }

  /** Trailing dims are multiplied in unclamped: when they make the product
      negative, allocating the zero storage throws and the fallback array is
      what remains. */
  lemma FromTextNegativeProduct(dims: seq<string>, vals: seq<string>,
                                parseInt: string -> Option<int32>, parseDouble: string -> Option<real>)
    requires Tokens(dims) && Tokens(vals) && |dims| >= 3 && |vals| >= 1
    requires ProductAll(Limit(ParseEach(dims, parseInt, 1)).value) < 0
    ensures FromText(Descriptor(dims, vals), parseInt, parseDouble) == Fallback
  {
    DescriptorSections(dims, vals);
    DescriptorTokens(dims, vals, parseInt, parseDouble);
  }

  /** A text without `]`, or without `}`, always gives the fallback array:
      the `substring` call for the unclosed section throws. */
  lemma FromTextNoClose(text: string, parseInt: string -> Option<int32>,
                        parseDouble: string -> Option<real>)
    requires ']' !in text || '}' !in text
    ensures FromText(text, parseInt, parseDouble) == Fallback
  {
  }

  /** `"[2 1 2] {1 2 3 4}"` with parsers that read these numerals is a
      `(2, 1, 2)` array holding `1 2 3 4`. */
  lemma FromTextScenario(text: string, parseInt: string -> Option<int32>,
                         parseDouble: string -> Option<real>)
    requires text == "[2 1 2] {1 2 3 4}"
    requires parseInt("1") == Some(1) && parseInt("2") == Some(2)
    requires parseDouble("1") == Some(1.0) && parseDouble("2") == Some(2.0)
    requires parseDouble("3") == Some(3.0) && parseDouble("4") == Some(4.0)
    ensures FromText(text, parseInt, parseDouble) == ArrayProperties.SCENARIO
  {
    var dims, vals := ["2", "1", "2"], ["1", "2", "3", "4"];
    ScenarioText();
    ScenarioTokens();
    FromTextDescriptor(dims, vals, parseInt, parseDouble);
    ScenarioParses(parseInt, parseDouble);
    ArrayProperties.ScenarioCell(0);
    var l := ArrayProperties.SCENARIO.l;
    assert Limit(l).value == l;
    var r := FromText(text, parseInt, parseDouble);
    assert r.s == ParseEach(vals, parseDouble, 0.0);
    assert r.l == l && r.All == 4;
  }

  lemma ScenarioTokens()
    ensures Tokens(["2", "1", "2"]) && Tokens(["1", "2", "3", "4"])
  {
  }

  lemma ScenarioParses(parseInt: string -> Option<int32>, parseDouble: string -> Option<real>)
    requires parseInt("1") == Some(1) && parseInt("2") == Some(2)
    requires parseDouble("1") == Some(1.0) && parseDouble("2") == Some(2.0)
    requires parseDouble("3") == Some(3.0) && parseDouble("4") == Some(4.0)
    ensures ParseEach(["2", "1", "2"], parseInt, 1) == [2, 1, 2]
    ensures ParseEach(["1", "2", "3", "4"], parseDouble, 0.0) == [1.0, 2.0, 3.0, 4.0]
  {
  }

  lemma ScenarioDims()
    ensures Join(["2", "1", "2"]) == "2 1 2"
  {
    assert ["2", "1", "2"][1..] == ["1", "2"] && ["1", "2"][1..] == ["2"];
  }

  lemma ScenarioValues()
    ensures Join(["1", "2", "3", "4"]) == "1 2 3 4"
  {
    assert ["1", "2", "3", "4"][1..] == ["2", "3", "4"];
    assert ["2", "3", "4"][1..] == ["3", "4"] && ["3", "4"][1..] == ["4"];
  }

  lemma ScenarioText()
    ensures Descriptor(["2", "1", "2"], ["1", "2", "3", "4"]) == "[2 1 2] {1 2 3 4}"
  {
    ScenarioDims();
    ScenarioValues();
  }

  /** In that array position `(1, 0, 1)` reads 4, and `(1, 0, 2)`, past the
      last extent, reads 0. */
  lemma ScenarioReads()
    ensures GetNum(ArrayProperties.SCENARIO, [1, 0, 1]) == Ok(4.0)
    ensures GetNum(ArrayProperties.SCENARIO, [1, 0, 2]) == Ok(0.0)
  {
    var a := ArrayProperties.SCENARIO;
    ArrayProperties.ProdThree(a.l);
    var p: seq<int32> := [1, 0, 1];
    ArrayProperties.GetNumZeroFill(a, p);
    assert Radix.InBounds(a.l, p);
    assert Radix.Flat(a.l, p) == 3 by {
      assert a.l[..2] == [2, 1] && [2, 1][..1] == [2] && [2][..0] == [];
      assert p[..2] == [1, 0] && [1, 0][..1] == [1] && [1][..0] == [];
    }
    var q: seq<int32> := [1, 0, 2];
    assert q[2] >= a.l[2];
  }
}

=== FILE: java_int.dfy ===
/** Java's 32-bit `int`: the range, two's-complement wrap-around of `+` and `*`,
    and the truncating `/` and `%`. */
module JavaInt {

  const MIN: int := -0x8000_0000
  const MAX: int := 0x7FFF_FFFF
  const MODULUS: int := 0x1_0000_0000

  type int32 = x: int | MIN <= x <= MAX

  /** The `int` that a Java arithmetic result `x` is stored as. */
  function Wrap(x: int): (r: int32)
    ensures (r - x) % MODULUS == 0
    ensures MIN <= x <= MAX ==> r == x
  {
    var m := (x - MIN) % MODULUS;
    assert (m + MIN - x) % MODULUS == 0 by {
      assert m + MIN - x == -((x - MIN) / MODULUS) * MODULUS;
    }
    m + MIN
  }

  function Abs(x: int): nat {
    if x < 0 then -x else x
  }

  /** The quotient rounded toward zero, before it is stored as an `int`. */
  function TruncQuot(a: int, b: int): int
    requires b != 0
  {
    var q := Abs(a) / Abs(b);
    if (a < 0) != (b < 0) then -q else q
  }

  /** Java `a / b` on `int` (only `MIN / -1` wraps). */
  function JDiv(a: int32, b: int32): (r: int32)
    requires b != 0
    ensures a >= 0 && b > 0 ==> r == a / b
  {
    Wrap(TruncQuot(a, b))
  }

  /** What the truncated quotient leaves over: the remainder of the absolute
      values, carrying the sign of `a`. */
  lemma TruncRemainder(a: int, b: int)
    requires b != 0
    ensures a - b * TruncQuot(a, b) == if a < 0 then -(Abs(a) % Abs(b)) else Abs(a) % Abs(b)
  {
    var q, m := Abs(a) / Abs(b), Abs(a) % Abs(b);
    assert Abs(a) == Abs(b) * q + m;
    if b < 0 {
      assert b * q == -(Abs(b) * q);
    }
  }

  /** Java `a % b` on `int`: the remainder takes the sign of `a`. */
  function JRem(a: int32, b: int32): (r: int32)
    requires b != 0
    ensures Abs(r) < Abs(b)
    ensures a >= 0 && b > 0 ==> r == a % b
  {
    TruncRemainder(a, b);
    a - b * TruncQuot(a, b)
  }

  /** `Mathf.clamp(value, lo, hi)` for `int`: `max(min(value, hi), lo)`. */
  function Clamp(value: int32, lo: int32, hi: int32): (r: int32)
    requires lo <= hi
    ensures lo <= r <= hi
    ensures lo <= value <= hi ==> r == value
  {
    if value > hi then hi else if value < lo then lo else value
  }
}

=== FILE: java_text.dfy ===
/** The three `String` operations the descriptor parser relies on:
    `indexOf` of a one-character string, `substring`, and `split(" ", 0)`. */
module JavaText {
  import opened Outcomes

  const SPACE: char := ' '

  /** `str.indexOf(c)`: the first index holding `c`, or -1. */
  function IndexOf(str: string, c: char): (r: int)
    ensures -1 <= r < |str|
    ensures r == -1 <==> c !in str
    ensures r >= 0 ==> str[r] == c && c !in str[..r]
  {
    if |str| == 0 then -1
    else if str[0] == c then 0
    else
      var k := IndexOf(str[1..], c);
      assert k >= 0 ==> str[1..][..k] == str[1..k + 1];
      if k < 0 then -1 else k + 1
  }

  /** `str.substring(str.indexOf(open) + 1, str.indexOf(close))`. A missing
      `open` starts the slice at 0; a missing `close`, or one that comes first,
      makes `substring` throw. */
  function Between(str: string, open: char, close: char): (r: Result<string>)
    ensures r.Err? <==> close !in str || IndexOf(str, close) < IndexOf(str, open) + 1
    ensures r.Ok? ==> close !in r.value
  {
    var b := IndexOf(str, open) + 1;
    var e := IndexOf(str, close);
    if e < b then Err(IndexOutOfBounds)
    else
      assert str[b..e] == str[..e][b..];
      Ok(str[b..e])
  }

  /** The pieces between successive spaces, empty ones included. */
  function Pieces(str: string): (r: seq<string>)
    ensures |r| >= 1
    ensures forall k :: 0 <= k < |r| ==> SPACE !in r[k]
    decreases |str|
  {
    if SPACE !in str then [str]
    else
      var i := IndexOf(str, SPACE);
      [str[..i]] + Pieces(str[i + 1..])
  }

  /** The tokens joined with single spaces between them. */
  function Join(ts: seq<string>): string
  {
    if |ts| == 0 then ""
    else if |ts| == 1 then ts[0]
    else ts[0] + [SPACE] + Join(ts[1..])
  }

  function DropTrailingEmpty(ts: seq<string>): (r: seq<string>)
    ensures |r| <= |ts| && r == ts[..|r|]
    ensures |r| > 0 ==> r[|r| - 1] != ""
    ensures forall k :: |r| <= k < |ts| ==> ts[k] == ""
  {
    if |ts| > 0 && ts[|ts| - 1] == "" then DropTrailingEmpty(ts[..|ts| - 1]) else ts
  }

  /** `str.split(" ", 0)`: with no space at all the whole string is the only
      token (so `""` gives one empty token); otherwise the pieces, with the
      trailing empty ones removed. */
  function Split(str: string): (r: seq<string>)
    ensures forall k :: 0 <= k < |r| ==> SPACE !in r[k]
    ensures SPACE !in str ==> r == [str]
  {
    if SPACE !in str then [str] else DropTrailingEmpty(Pieces(str))
  }

  /** Joining the pieces with spaces rebuilds the string. */
  lemma {:induction false} JoinPieces(str: string)
    ensures Join(Pieces(str)) == str
    decreases |str|
  {
    if SPACE in str {
      var i := IndexOf(str, SPACE);
      var rest := Pieces(str[i + 1..]);
      JoinPieces(str[i + 1..]);
      assert Pieces(str) == [str[..i]] + rest;
      assert Join([str[..i]] + rest) == str[..i] + [SPACE] + Join(rest) by {
        assert ([str[..i]] + rest)[1..] == rest;
      }
      assert str == str[..i] + [SPACE] + str[i + 1..];
    }
  }

  /** Cutting a space-joined list of space-free tokens at its spaces gives the
      tokens back. */
  lemma {:induction false} PiecesJoin(ts: seq<string>)
    requires |ts| >= 1
    requires forall k :: 0 <= k < |ts| ==> SPACE !in ts[k]
    ensures Pieces(Join(ts)) == ts
  {
    if |ts| > 1 {
      var str := Join(ts);
      assert str == ts[0] + [SPACE] + Join(ts[1..]);
      IndexOfAfter(ts[0], SPACE, Join(ts[1..]));
      assert str[..|ts[0]|] == ts[0];
      assert str[|ts[0]| + 1..] == Join(ts[1..]);
      PiecesJoin(ts[1..]);
      assert SPACE in str by { assert str[|ts[0]|] == SPACE; }
    }
  }

  /** The first `c` of `a + [c] + b`, when `a` has none, is right after `a`. */
  lemma IndexOfAfter(a: string, c: char, b: string)
    requires c !in a
    ensures IndexOf(a + [c] + b, c) == |a|
  {
    var str := a + [c] + b;
    assert str[|a|] == c;
    assert str[..|a|] == a;
    var r := IndexOf(str, c);
    assert r <= |a|;
  }

  /** `substring(indexOf(open) + 1, indexOf(close))` of a string laid out as
      `pre open mid close post`, with neither bracket before `open` and no
      `close` inside `mid`, is `mid`. */
  lemma BetweenSection(pre: string, open: char, mid: string, close: char, post: string)
    requires open !in pre && close !in pre && close !in mid && open != close
    ensures Between(pre + [open] + mid + [close] + post, open, close) == Ok(mid)
  {
    var head := pre + [open] + mid;
    var str := head + [close] + post;
    assert str == pre + [open] + (mid + [close] + post);
    IndexOfAfter(pre, open, mid + [close] + post);
    assert close !in head;
    IndexOfAfter(head, close, post);
    assert str[|pre| + 1..|head|] == mid;
  }

  /** Tokens free of a character other than the space join to a string free of it. */
  lemma {:induction false} JoinAvoids(ts: seq<string>, c: char)
    requires c != SPACE && forall k :: 0 <= k < |ts| ==> c !in ts[k]
    ensures c !in Join(ts)
  {
    if |ts| > 1 {
      JoinAvoids(ts[1..], c);
    }
  }

  /** `split(" ", 0)` inverts joining non-empty, space-free tokens. */
  lemma SplitJoin(ts: seq<string>)
    requires |ts| >= 1
    requires forall k :: 0 <= k < |ts| ==> SPACE !in ts[k] && ts[k] != ""
    ensures Split(Join(ts)) == ts
  {
    if |ts| == 1 {
      assert Join(ts) == ts[0];
    } else {
      PiecesJoin(ts);
      var str := Join(ts);
      assert str[|ts[0]|] == SPACE by {
        assert str == ts[0] + [SPACE] + Join(ts[1..]);
      }
      assert ts[|ts| - 1] != "";
    }
  }
}

=== FILE: outcomes.dfy ===
/** Outcomes of the array engine's operations: either a value or the fault that
    the Java code would raise at that point. */
module Outcomes {

  /** What went wrong. The first three are the Java exceptions the engine can
      throw; `NonFinite` marks a division by zero, which in Java silently stores
      an infinity or NaN that this model does not represent. */
  datatype Fault =
    | IndexOutOfBounds
    | Arithmetic
    | NegativeArraySize
    | NonFinite

  /** A value, or the fault raised while computing it; usable with `:-`. */
  datatype Result<+T> = Ok(value: T) | Err(fault: Fault) {

    predicate IsFailure() {
      Err?
    }

    function PropagateFailure<U>(): Result<U>
      requires Err?
    {
      Err(fault)
    }

    function Extract(): T
      requires Ok?
    {
      value
    }
  }

  /** What a number parser or a lookup returns: a value, or nothing when the
      text is rejected or nothing matches. */
  datatype Option<+T> = None | Some(value: T) {

    function GetOr(default: T): T {
      match this
      case Some(v) => v
      case None => default
    }
  }
}

=== FILE: radix.dfy ===
/** Row-major (mixed-radix) addressing in plain mathematics: the product of the
    extents, the linear index of a position with the last axis varying fastest,
    and the position of a linear index. These are the reference definitions the
    Java-level addressing of the array engine is proved against. */
module Radix {

  /** Product of all entries, multiplied from the first to the last. */
  function Prod(l: seq<int>): int
  {
    if |l| == 0 then 1 else Prod(l[..|l| - 1]) * l[|l| - 1]
  }

  predicate Positive(l: seq<int>) {
    forall i :: 0 <= i < |l| ==> l[i] >= 1
  }

  /** Every coordinate of `p` lies in `[0, l[i])`. */
  predicate InBounds(l: seq<int>, p: seq<int>) {
    |p| == |l| && forall i :: 0 <= i < |p| ==> 0 <= p[i] < l[i]
  }

  /** Linear index of `p` under extents `l`: the last axis has stride 1. */
  function Flat(l: seq<int>, p: seq<int>): int
    requires |p| == |l|
  {
    if |l| == 0 then 0
    else Flat(l[..|l| - 1], p[..|p| - 1]) * l[|l| - 1] + p[|p| - 1]
  }

  /** Position of linear index `n` under extents `l`, every axis taken modulo
      its extent. */
  function Coords(l: seq<int>, n: nat): (p: seq<int>)
    requires Positive(l)
    ensures |p| == |l|
  {
    if |l| == 0 then []
    else Coords(l[..|l| - 1], n / l[|l| - 1]) + [n % l[|l| - 1]]
  }

  // ---------------------------------------------------------------------
  // Euclidean division facts

  lemma MulNonneg(a: int, b: int)
    requires a >= 0 && b >= 0
    ensures a * b >= 0
  {
  }

  lemma DivNonneg(n: int, d: int)
    requires n >= 0 && d > 0
    ensures 0 <= n / d <= n
  {
    var q, r := n / d, n % d;
    assert n == q * d + r;
    if q < 0 {
      MulNonneg(-q, d);
    }
    MulNonneg(q, d - 1);
    assert q * d == q * (d - 1) + q;
  }

  /** `n / d` as a natural number. */
  function Quot(n: nat, d: int): (q: nat)
    requires d >= 1
    ensures q == n / d
  {
    DivNonneg(n, d);
    n / d
  }

  lemma DivModUnique(n: int, d: int, q: int, r: int)
    requires d > 0 && 0 <= r < d && n == q * d + r
    ensures n / d == q && n % d == r
  {
    var q0, r0 := n / d, n % d;
    assert (q - q0) * d == r0 - r by {
      assert q * d + r == q0 * d + r0;
    }
    if q > q0 {
      MulNonneg(q - q0 - 1, d);
    } else if q < q0 {
      MulNonneg(q0 - q - 1, d);
    }
  }

  lemma Regroup(q2: int, b: int, r2: int, a: int)
    ensures (q2 * b + r2) * a == q2 * (a * b) + r2 * a
  {
  }

  /** A two-digit remainder stays below the combined base. */
  lemma DigitBound(r2: int, r1: int, a: int, b: int)
    requires 0 <= r2 < b && 0 <= r1 < a
    ensures 0 <= r2 * a + r1 < a * b
  {
    MulNonneg(r2, a);
    MulNonneg(b - 1 - r2, a);
    assert (b - 1 - r2) * a == a * b - a - r2 * a;
  }

  /** Dividing by `a` and then by `b` is dividing by `a * b`, and the
      remainder splits into the two digits. */
  lemma DivDiv(n: nat, a: int, b: int)
    requires a > 0 && b > 0
    ensures n / (a * b) == (n / a) / b
    ensures n % (a * b) == ((n / a) % b) * a + n % a
  {
    var q1, r1 := n / a, n % a;
    var q2, r2 := q1 / b, q1 % b;
    Regroup(q2, b, r2, a);
    DigitBound(r2, r1, a, b);
    DivModUnique(n, a * b, q2, r2 * a + r1);
  }

  // ---------------------------------------------------------------------
  // Products

  lemma {:induction false} ProdPositive(l: seq<int>)
    requires Positive(l)
    ensures Prod(l) >= 1
  {
    if |l| > 0 {
      ProdPositive(l[..|l| - 1]);
    }
  }

  lemma {:induction false} ProdConcat(a: seq<int>, b: seq<int>)
    ensures Prod(a + b) == Prod(a) * Prod(b)
    decreases |b|
  {
    if |b| == 0 {
      assert a + b == a;
    } else {
      var b' := b[..|b| - 1];
      assert (a + b)[..|a + b| - 1] == a + b';
      ProdConcat(a, b');
      calc {
        Prod(a + b);
        Prod(a + b') * b[|b| - 1];
        Prod(a) * Prod(b') * b[|b| - 1];
        Prod(a) * (Prod(b') * b[|b| - 1]);
      }
    }
  }

  /** Multiplying by a product of positive extents never shrinks a positive value. */
  lemma MulGrows(x: int, y: int)
    requires x >= 1 && y >= 1
    ensures x * y >= x && x * y >= y
  {
    MulNonneg(x - 1, y);
    MulNonneg(x, y - 1);
  }

  /** A positive factor between two others is at most their product. */
  lemma MiddleBound(x: int, y: int, z: int)
    requires x >= 1 && y >= 1 && z >= 1
    ensures 1 <= y <= x * y * z
  {
    MulGrows(x, y);
    MulGrows(x * y, z);
  }

  /** The product of positive extents bounds the product of any slice. */
  lemma ProdSliceBound(l: seq<int>, i: nat, j: nat)
    requires Positive(l) && i <= j <= |l|
    ensures 1 <= Prod(l[i..j]) <= Prod(l)
  {
    var a, b, c := l[..i], l[i..j], l[j..];
    assert a + b + c == l;
    ProdConcat(a + b, c);
    ProdConcat(a, b);
    ProdPositive(a);
    ProdPositive(b);
    ProdPositive(c);
    MiddleBound(Prod(a), Prod(b), Prod(c));
  }

  /** Dropping the last of several positive extents cannot grow the product. */
  lemma ProdDropLast(l: seq<int>)
    requires |l| > 0
    ensures Positive(l) ==> 1 <= Prod(l[..|l| - 1]) <= Prod(l)
  {
    if Positive(l) {
      ProdSliceBound(l, 0, |l| - 1);
      assert l[0..|l| - 1] == l[..|l| - 1];
    }
  }

  /** Suffix products grow one extent at a time toward the front. */
  lemma SuffixStep(l: seq<int>, k: nat)
    requires 1 <= k <= |l|
    ensures Prod(l[k - 1..]) == l[k - 1] * Prod(l[k..])
  {
    assert l[k - 1..] == [l[k - 1]] + l[k..];
    ProdConcat([l[k - 1]], l[k..]);
    assert [l[k - 1]][..0] == [];
  }

  // ---------------------------------------------------------------------
  // The two directions of the addressing bijection

  /** Decoding gives coordinates within the extents. */
  lemma {:induction false} CoordsInBounds(l: seq<int>, n: nat)
    requires Positive(l)
    ensures InBounds(l, Coords(l, n))
  {
    if |l| > 0 {
      CoordsInBounds(l[..|l| - 1], n / l[|l| - 1]);
    }
  }

  /** One more axis: an index below `prod` on the front axes, and a last
      coordinate below `c`, give an index below `prod * c`. */
  lemma IndexStep(f: int, x: int, c: int, prod: int)
    requires 0 <= f < prod && 0 <= x < c
    ensures 0 <= f * c + x < prod * c
  {
    MulNonneg(f, c);
    MulNonneg(prod - 1 - f, c);
    assert (prod - 1 - f) * c == prod * c - c - f * c;
  }

  /** An in-bounds position has a linear index below the product. */
  lemma {:induction false} FlatBound(l: seq<int>, p: seq<int>)
    requires InBounds(l, p)
    ensures 0 <= Flat(l, p) < Prod(l)
  {
    if |l| > 0 {
      var l', p' := l[..|l| - 1], p[..|p| - 1];
      FlatBound(l', p');
      IndexStep(Flat(l', p'), p[|p| - 1], l[|l| - 1], Prod(l'));
    }
  }

  /** Encoding a decoded index gives the index back, reduced modulo the product. */
  lemma {:induction false} FlatCoords(l: seq<int>, n: nat)
    requires Positive(l)
    ensures Prod(l) >= 1
    ensures Flat(l, Coords(l, n)) == n % Prod(l)
  {
    ProdPositive(l);
    if |l| > 0 {
      var l', c := l[..|l| - 1], l[|l| - 1];
      var p := Coords(l, n);
      assert p[..|p| - 1] == Coords(l', n / c);
      FlatCoords(l', n / c);
      ProdPositive(l');
      DivDiv(n, c, Prod(l'));
      assert c * Prod(l') == Prod(l);
    }
  }

  /** Decoding the linear index of an in-bounds position gives the position back. */
  lemma {:induction false} CoordsFlat(l: seq<int>, p: seq<int>)
    requires Positive(l) && InBounds(l, p)
    ensures Flat(l, p) >= 0
    ensures Coords(l, Flat(l, p)) == p
  {
    FlatBound(l, p);
    if |l| > 0 {
      var l', p' := l[..|l| - 1], p[..|p| - 1];
      var c, x := l[|l| - 1], p[|p| - 1];
      CoordsFlat(l', p');
      var f := Flat(l', p');
      DivModUnique(f * c + x, c, f, x);
      assert p == p' + [x];
    }
  }

  /** `(x * y + z) * c + w` regrouped around `x`. */
  lemma Horner(x: int, y: int, z: int, c: int, w: int)
    ensures (x * y + z) * c + w == x * (y * c) + (z * c + w)
  {
  }

  /** Flat index of a concatenation: the front part scaled by the back's product. */
  lemma {:induction false} FlatConcat(a: seq<int>, b: seq<int>, p: seq<int>, q: seq<int>)
    requires |p| == |a| && |q| == |b|
    ensures Flat(a + b, p + q) == Flat(a, p) * Prod(b) + Flat(b, q)
    decreases |b|
  {
    if |b| == 0 {
      assert a + b == a && p + q == p;
    } else {
      var b', q' := b[..|b| - 1], q[..|q| - 1];
      assert (a + b)[..|a + b| - 1] == a + b';
      assert (p + q)[..|p + q| - 1] == p + q';
      FlatConcat(a, b', p, q');
      Horner(Flat(a, p), Prod(b'), Flat(b', q'), b[|b| - 1], q[|q| - 1]);
    }
  }

  /** The row-major index of the axes from `k-1` on: the coordinate on axis
      `k-1` scaled by the product of the later extents, plus the rest. */
  lemma FlatTail(l: seq<int>, p: seq<int>, k: nat)
    requires |p| == |l| && 1 <= k <= |l|
    ensures Flat(l[k - 1..], p[k - 1..]) == p[k - 1] * Prod(l[k..]) + Flat(l[k..], p[k..])
  {
    var c, x := l[k - 1], p[k - 1];
    assert l[k - 1..] == [c] + l[k..] && p[k - 1..] == [x] + p[k..];
    FlatConcat([c], l[k..], [x], p[k..]);
    assert Flat([c], [x]) == x by {
      assert [c][..0] == [] && [x][..0] == [];
    }
  }
}

=== FILE: vector_algebra.dfy ===
/** Algebra of the short vectors the engine's dot and cross products work on. */
module VectorAlgebra {

  /** `u[0]*v[0] + … + u[n-1]*v[n-1]`, accumulated from the front. */
  function DotPrefix(u: seq<real>, v: seq<real>, n: nat): real
    requires n <= |u| && n <= |v|
  {
    if n == 0 then 0.0 else DotPrefix(u, v, n - 1) + u[n - 1] * v[n - 1]
  }

  /** The dot product does not depend on the order of its operands. */
  lemma {:induction false} DotPrefixSymmetric(u: seq<real>, v: seq<real>, n: nat)
    requires n <= |u| && n <= |v|
    ensures DotPrefix(u, v, n) == DotPrefix(v, u, n)
  {
    if n > 0 {
      DotPrefixSymmetric(u, v, n - 1);
    }
  }

  /** The 3-D cross product of `(u0, u1, u2)` and `(v0, v1, v2)`. */
  function CrossOf(u0: real, u1: real, u2: real, v0: real, v1: real, v2: real): seq<real> {
    [u1 * v2 - u2 * v1, u2 * v0 - u0 * v2, u0 * v1 - u1 * v0]
  }

  /** The 3-D cross product of the first three entries of `u` and `v`. */
  function Cross3(u: seq<real>, v: seq<real>): (r: seq<real>)
    requires |u| >= 3 && |v| >= 3
    ensures |r| == 3
  {
    CrossOf(u[0], u[1], u[2], v[0], v[1], v[2])
  }

  /** Component `i` of the formula the loop of `crossProd` evaluates,
      `u[(i+1)%3]*v[(i+2)%3] - u[(i+2)%3]*v[(i+1)%3]`, is component `i` of
      the cross product. */
  lemma LoopFormulaIsCross3(u: seq<real>, v: seq<real>, i: int)
    requires |u| >= 3 && |v| >= 3 && 0 <= i < 3
    ensures u[(i + 1) % 3] * v[(i + 2) % 3] - u[(i + 2) % 3] * v[(i + 1) % 3] == Cross3(u, v)[i]
  {
  }

  /** `x0*y0 + x1*y1 + x2*y2`. */
  function Dot3(x0: real, x1: real, x2: real, y0: real, y1: real, y2: real): real {
    x0 * y0 + x1 * y1 + x2 * y2
  }

  /** A vector crossed with itself is the zero vector. */
  lemma CrossSelfZero(u: seq<real>)
    requires |u| >= 3
    ensures Cross3(u, u) == [0.0, 0.0, 0.0]
  {
  }

  /** Swapping the operands negates the cross product. */
  lemma CrossAnticommutes(u: seq<real>, v: seq<real>)
    requires |u| >= 3 && |v| >= 3
    ensures forall i :: 0 <= i < 3 ==> Cross3(u, v)[i] == -Cross3(v, u)[i]
  {
  }

  /** A three-term dot product written out. */
  lemma DotThree(u: seq<real>, w: seq<real>)
    requires |u| >= 3 && |w| >= 3
    ensures DotPrefix(u, w, 3) == Dot3(u[0], u[1], u[2], w[0], w[1], w[2])
  {
    assert DotPrefix(u, w, 1) == u[0] * w[0];
    assert DotPrefix(u, w, 2) == DotPrefix(u, w, 1) + u[1] * w[1];
  }

  /** The scalar identity behind orthogonality of the cross product. */
  lemma OrthogonalScalars(u0: real, u1: real, u2: real, v0: real, v1: real, v2: real)
    ensures var c := CrossOf(u0, u1, u2, v0, v1, v2);
      Dot3(u0, u1, u2, c[0], c[1], c[2]) == 0.0
  {
    var c := CrossOf(u0, u1, u2, v0, v1, v2);
    assert u0 * c[0] == u0 * u1 * v2 - u0 * u2 * v1;
    assert u1 * c[1] == u1 * u2 * v0 - u0 * u1 * v2;
    assert u2 * c[2] == u0 * u2 * v1 - u1 * u2 * v0;
  }

  /** The cross product is orthogonal to its first operand. */
  lemma CrossOrthogonal(u: seq<real>, v: seq<real>)
    requires |u| >= 3 && |v| >= 3
    ensures DotPrefix(u, Cross3(u, v), 3) == 0.0
  {
    DotThree(u, Cross3(u, v));
    OrthogonalScalars(u[0], u[1], u[2], v[0], v[1], v[2]);
  }
}

=== FILE: vfunc.dfy ===
/** The vector-operation catalogue `stuff.logic.VFunc`: four operations, each
    a symbol and a callable of one of two shapes. The callables themselves
    (`AddVector`, `SubVector`, `DotProc`, `CrossProc`) live in
    `stuff.AdditionalFunction`, which is not part of this model: they are
    passed in as a `Library`. */
module VFuncCatalog {
  import opened Outcomes
  import AFuncCatalog

  /** `NormalScalar`: two vectors to a number. */
  type ScalarFn = (seq<real>, seq<real>) -> real

  /** `NormalVector`: two vectors to a vector. */
  type VectorFn = (seq<real>, seq<real>) -> seq<real>

  /** The four helpers the constants delegate to. */
  datatype Library = Library(addVector: VectorFn, subVector: VectorFn,
                             dotProc: ScalarFn, crossProc: VectorFn)

  datatype VFunc = AddV | SubV | DotV | CrossV

  /** The fields of one constant; a Java `null` is `None`. */
  datatype Entry = Entry(symbol: string, op1: Option<ScalarFn>, op2: Option<VectorFn>,
                         op3: Option<VectorFn>, scalar: bool, cross: bool)

  /** The constructor `VFunc(String, NormalVector)`. */
  function VectorEntry(symbol: string, opIn: VectorFn): (e: Entry)
    ensures e.symbol == symbol && e.op1.None? && e.op2.Some? && e.op3.None?
    ensures forall x, y :: e.op2.value(x, y) == opIn(x, y)
    ensures !e.scalar && !e.cross
  {
    Entry(symbol, None, Some(opIn), None, false, false)
  }

  /** The constructor `VFunc(String, Boolean, NormalScalar)`. */
  function ScalarEntry(symbol: string, isScalar: bool, opIn: ScalarFn): (e: Entry)
    ensures e.symbol == symbol && e.op1.Some? && e.op2.None? && e.op3.None?
    ensures forall x, y :: e.op1.value(x, y) == opIn(x, y)
    ensures e.scalar == isScalar && !e.cross
  {
    Entry(symbol, Some(opIn), None, None, isScalar, false)
  }

  /** The fields each constant is built with: one callable per constant,
      `op1` exactly for the scalar `dotV`, and never `op3` or `cross`. */
  function Fields(v: VFunc, lib: Library): (e: Entry)
    ensures e.op1.Some? != e.op2.Some?
    ensures e.op3.None? && !e.cross
    ensures e.scalar <==> v == DotV
    ensures e.scalar <==> e.op1.Some?
  {
    match v
    case AddV => VectorEntry("+", (a, b) => lib.addVector(a, b))
    case SubV => VectorEntry("-", (a, b) => lib.subVector(a, b))
    case DotV => ScalarEntry("·", true, (a, b) => lib.dotProc(a, b))
    case CrossV => VectorEntry("x", (a, b) => lib.crossProc(a, b))
  }

  /** The array operation of `AFunc` that performs the same computation. */
  function ArrayCounterpart(v: VFunc): AFuncCatalog.AFunc {
    match v
    case AddV => AFuncCatalog.Add
    case SubV => AFuncCatalog.Sub
    case DotV => AFuncCatalog.DotProd
    case CrossV => AFuncCatalog.CrossProd
  }

  /** `getSymbol()`: whatever the helpers are, a constant shows the same
      symbol as its counterpart in the array catalogue. */
  function GetSymbol(v: VFunc, lib: Library): (r: string)
    ensures r == AFuncCatalog.Symbol(ArrayCounterpart(v))
  {
    Fields(v, lib).symbol
  }

  /** `VFunc.all = values()`. */
  const All: seq<VFunc> := [AddV, SubV, DotV, CrossV]

  /** Each constant delegates to its own helper. */
  lemma FieldsDelegate(lib: Library, x: seq<real>, y: seq<real>)
    ensures Fields(AddV, lib).op2.value(x, y) == lib.addVector(x, y)
    ensures Fields(SubV, lib).op2.value(x, y) == lib.subVector(x, y)
    ensures Fields(DotV, lib).op1.value(x, y) == lib.dotProc(x, y)
    ensures Fields(CrossV, lib).op2.value(x, y) == lib.crossProc(x, y)
  {
  }

  /** `values()` lists the four constants in declaration order, and their
      symbols are pairwise distinct whatever the helpers are. */
  lemma AllDistinctSymbols(lib: Library)
    ensures |All| == 4 && forall v: VFunc :: v in All
    ensures forall i, j :: 0 <= i < j < |All| ==> GetSymbol(All[i], lib) != GetSymbol(All[j], lib)
  {
    forall v: VFunc
      ensures v in All
    {
      match v
      case AddV => assert All[0] == v;
      case SubV => assert All[1] == v;
      case DotV => assert All[2] == v;
      case CrossV => assert All[3] == v;
    }
  }
}
